=== FILE: README.md ===
# NovelRuntime launcher — a Dafny model

NovelRuntime (`nr-latest.py`) is a desktop runner for HTML/CSS/JS content. It
shows the content in a Qt WebEngine window, serves it with Flask, or does both.
A persisted `runtime_conf.ini` decides which. This project models the launcher's
decision logic as pure functions and small state machines. It proves the
properties that logic promises:

- **Hardware profiler** (`gpu.dfy`). `get_gpu_type` takes the probe outcome (an
  exit code and output text, or an exception) and returns `nvidia`, `amd` or
  `intel`, using keyword priority on the lower-cased text. The if/elif table
  then turns that name into Qt/Chromium environment settings. The
  `/system/gpu-info` route looks the name up in its own table.
- **Configuration store** (`config.dfy`). This is configparser's section → option
  → string map with defaulted, boolean and integer reads. It also covers the
  validation and mutation done by `POST /config/set`, and the 404-or-200 lookup
  of `GET /config/section/<name>`.
- **Desktop shell** (`window.dfy`). `MainWindow` is an event-driven state
  machine. It opens with a placeholder page and arms a 2000 ms one-shot timer
  for the content URL. Escape toggles fullscreen. Each failed load schedules a
  3000 ms retry to the same URL, with no limit on retries. Progress is logged
  at multiples of 25. Qt timers are emitted `Schedule` effects plus a multiset
  of pending tasks. Load signals reach the shell only after `load_main_url` has
  connected its handlers.
- **Plugins and template guard** (`plugins.dfy`). `load_modules` counts the
  modules that define `register`. The `/templates/<path>` route rejects paths
  that do not end in `.html`.
- **Launcher** (`launcher.dfy`). This is the import-time sequence: config read,
  `Window.Potato` read, GPU flags, plugins. Then comes the `__main__` guard and
  `main()`. `main()` picks one topology: scaffold and exit, hint and exit,
  shell only, inline server, detached `--only-server` spawn, or a server unit
  followed by the shell. Each side effect is an emitted `Action`.
- `text.dfy` holds the Python string operations the code relies on: `lower`,
  `strip`, `in`, `endswith`, `str(int)` and `int(str)`. `wrappers.dfy` holds
  `Option`/`Result`.

Inputs that the program gets from the outside world are parameters here:

- the probe outcome;
- the platform (Windows or not), which changes the probe text, the plugin
  glob's case sensitivity, and whether a detached console can be spawned;
- whether the config file exists, and its parsed content;
- the entries of `bin/modules` and what executing each one does;
- whether scaffolding raised;
- what `request.get_json()` returned to `POST /config/set`;
- whether rewriting the config file succeeded;
- what `render_template` produced.

Some consequences of the code, each proved in the model:

- A failed or unmatched probe gives `"intel"`, not `"unknown"`. No path of
  `get_gpu_type` returns `"unknown"`. So the software-rendering branch of the
  flag table (nr-latest.py:118-121) and the `"unknown"` fallback of the
  gpu-info lookup (nr-latest.py:651) can never run. `ClassifiedFlagsAreAccelerated`
  and `GpuInfoRoute` prove this.
- A plugin whose code raises is not isolated. Nothing wraps `exec_module` or
  `register`, so the exception escapes the import and the process never starts
  (`LoadAll`, `OneFailureAbortsAll`).
- Each failure schedules one retry for each connected handler. Nothing merges
  retries that are already pending. The handlers are connected once, so that
  is one retry per failure.
- With the `--only-server` marker, the server starts even when the config file
  is absent. It then uses the defaults.
- `set_config` changes the store in memory before it writes the file. A failed
  write therefore answers 500 but keeps the change. A non-string key answers
  500 too, but only after a new section has already been added.
- `subprocess.CREATE_NEW_CONSOLE` exists only on Windows. Elsewhere,
  `server_console = true` makes `main()` report an `AttributeError` and wait
  for Enter: mode "server" then starts nothing, and mode "both" reaches
  neither the server nor the shell (`Detach`, `ModeActions`).
- On Windows the plugin glob ignores letter case, so `Plugin.PY` is picked
  there and nowhere else (`UpperSuffixOnlyOnWindows`). The load then crashes:
  `spec_from_file_location` chooses its loader by a case-sensitive suffix
  test, returns no spec for that name, and `module_from_spec` raises
  (`UpperSuffixCrashesOnWindows`).
- `int()` strips the same whitespace as `str.strip()` except the four
  information separators U+001C..U+001F. A geometry or port value containing
  one of them is rejected even at its ends (`ParseInt`).

## Model

| member | source | states |
|---|---|---|
| Gpu.Classify | nr-latest.py:61-100 | the answer is always nvidia, amd or intel; nvidia iff the probe exited 0 and its lower-cased output mentions "nvidia"; amd iff it exited 0, does not mention "nvidia" and mentions "amd" or "radeon"; intel for a non-zero exit, an exception, or no keyword (an "intel" mention changes nothing) |
| Gpu.NvidiaWins | nr-latest.py:72-79 | an NVIDIA mention in any letter case, anywhere in the output, gives nvidia whatever other vendors are listed |
| Gpu.AmdBeatsIntel | nr-latest.py:89-95 | without an nvidia mention, an AMD or Radeon mention in any letter case gives amd even when Intel is also listed |
| Gpu.ClassifyIgnoresPlatform | nr-latest.py:63-98 | the Windows branch (strip then lower) and the other branch (lower only) classify every probe outcome the same way |
| Gpu.SearchFindsMention | nr-latest.py:71-74 | the `in` test on the (stripped,) lower-cased probe text holds iff the lower-cased output contains the keyword |
| Gpu.EnvFlags | nr-latest.py:105-121 | QTWEBENGINE_CHROMIUM_FLAGS is always set to the vendor's switches; QT_OPENGL=desktop exactly for nvidia and intel; QT_QUICK_BACKEND=software exactly for intel and any unrecognised name; no other variable is touched |
| Gpu.AcceleratedIffKnownVendor | nr-latest.py:105-121 | `--enable-gpu` is among the switches iff the name is nvidia, amd or intel, and `--disable-gpu` iff it is not |
| Gpu.VendorFlagsAreAccelerated | nr-latest.py:105-117 | each classifier answer selects a GPU-enabled row that differs from the software-rendering row |
| Gpu.ClassifiedFlagsAreAccelerated | nr-latest.py:103-121 | for every probe outcome the flags applied at start enable the GPU and are never the software fallback (nr-latest.py:118-121 is unreachable) |
| Gpu.GpuInfoFor | nr-latest.py:651-652 | the reply's type is the given name; a name in the table gets its own row, any other name gets the software row |
| Gpu.VendorHasRow | nr-latest.py:628-651 | every classifier answer has its own table row, renderer "opengl" for intel and "hardware" otherwise |
| Gpu.GpuInfoRoute | nr-latest.py:623-654 | the gpu-info reply never reports "unknown" or the software renderer; the renderer is "opengl" exactly when the classifier says intel |
| Config.Lookup | nr-latest.py:660 | a value is found exactly when the section exists and holds the lower-cased option name, and it is the text stored there |
| Config.LookupIgnoresKeyCase | nr-latest.py:660 | an option is found under any letter case of its name |
| Config.Get | nr-latest.py:900 | the stored text when the option is found, the fallback otherwise |
| Config.FallbackOnlyWhenAbsent | nr-latest.py:691 | the fallback shows through exactly when the section or the option is missing |
| Config.ParseBool | nr-latest.py:901 | true exactly for 1/yes/true/on and false exactly for 0/no/false/off, in any letter case |
| Config.ParseBoolIgnoresCaseNotPadding | nr-latest.py:58 | the boolean words are recognised in any letter case, and any text that starts or ends with whitespace is not a boolean word |
| Config.GetBool | nr-latest.py:901 | an absent section or option gives the fallback; a present value gives its boolean word's meaning, or an error when it is not one of configparser's words |
| Config.GetInt | nr-latest.py:661 | an absent section or option gives the fallback; a present value gives `int(value)`, or an error exactly when `int()` rejects it |
| Config.SetConfig | nr-latest.py:578-608 | 400 exactly when the guard rejects the body without raising (a falsy body, an object or a non-empty array/string missing a field name); an unreadable body, a number or `true`, or an array/string holding all three names is a 500; every body that is not an object with all three fields leaves the store unchanged; 200 exactly for a string section other than DEFAULT, a string key and a successful write; a valid request binds the lower-cased key to `str(value)` in the (possibly new) section and changes no other section or option; a non-string key leaves only the added section behind; well-formedness is preserved |
| Config.GetSection | nr-latest.py:610-621 | 404 exactly when the section is absent, otherwise 200 with that section's options |
| Config.SetThenGet | nr-latest.py:593-597 | after a valid set, reading that section and key (in any letter case, with any fallback) gives the stored `str(value)` |
| Config.SetThenSectionFound | nr-latest.py:593-618 | after a valid set the section lookup succeeds and holds the new binding |
| Config.SetLeavesOtherReads | nr-latest.py:585-597 | every read of another section or another key gives what it gave before, whatever the reply |
| Config.SetThenGetInt | nr-latest.py:597 | setting a JSON integer and reading it back with `getint` gives the same integer |
| Config.SetThenGetBool | nr-latest.py:597 | setting a JSON boolean stores "True"/"False", which `getboolean` reads back as the same boolean |
| Text.ContainsIffOccurs | nr-latest.py:74 | the scanning substring test agrees with "occurs at some position" |
| Text.OccursThroughStrip | nr-latest.py:71-72 | stripping whitespace cannot change whether a keyword without whitespace is found |
| Text.StripPadded | nr-latest.py:900 | `strip()` removes exactly the whitespace padding around a word |
| Text.ParseInt | nr-latest.py:682-685 | `int()` accepts exactly the texts with no information separator whose stripped form is an optional sign and one or more digits, of any length; the value is that literal's decimal digits, negated after a leading minus, and a negative result comes only from a leading minus |
| Text.LiteralValue | nr-latest.py:682-685 | the value of a sign-and-digits literal is its digits' decimal value, negated after `-` and unchanged after `+` |
| Text.ParseIntIgnoresPadding | nr-latest.py:682-685 | whitespace (other than the information separators) around a value does not change what `int()` makes of it |
| Text.ParseIntPlusSign | nr-latest.py:682-685 | a leading `+` before digits does not change the value |
| Text.ParseIntLeadingZero | nr-latest.py:682-685 | a leading zero before digits does not change the value |
| Text.ParseIntOfIntToString | nr-latest.py:661 | `int(str(n)) == n` for every integer, with Python integers taken as unbounded (no digit-count limit) |
| Window.DefaultUrl | nr-latest.py:691 | the content URL is http://, the Server host text, a colon, the Server port text and a slash, each defaulted (127.0.0.1, 5000) when absent; without a Server section it is http://127.0.0.1:5000/ |
| Window.ReadGeometry | nr-latest.py:681-686 | succeeds exactly when each of x, y, width, height is absent or accepted by `int()`; each field is the parsed value or its default 100, 100, 1200, 800; a failure is an integer error in the Window section |
| Window.Open | nr-latest.py:667-718 | fails exactly when the Window section is missing, `fullscreen` is not a boolean, or (windowed only) a geometry value is not an integer; on success the initial fullscreen flag is the configured one, the URL is `Window.url` or the default, and the effects are fullscreen-or-geometry, the placeholder, and one 2000 ms main-URL timer |
| Window.Step | nr-latest.py:758-856 | no event changes the URL or title; only Escape (16777216) flips fullscreen, with the matching show call; progress is logged for 0..100 exactly at 0, 25, 50, 75, 100; a finished load schedules one 3000 ms retry for each connected handler on failure and nothing on success; the pending main-URL timer connects one set of handlers and navigates to the shell's URL; a timer that is not pending does nothing; the timer invariant is kept |
| Window.OpenedMainTimerConnects | nr-latest.py:715-830 | in a freshly opened window the 2000 ms timer navigates to the configured or default URL and leaves exactly one set of handlers connected and no timer pending |
| Window.OpenedWindowRetriesForever | nr-latest.py:715-856 | after the opened window's main-URL timer, any number of failed loads each cause one 3000 ms retry to the same URL, with no limit |
| Window.EscapeTwiceRestores | nr-latest.py:758-769 | two Escape presses give back the original state |
| Window.FullscreenParity | nr-latest.py:758-769 | after any events the window is fullscreen iff its starting flag differs from the parity of the Escape presses |
| Window.RunKeepsUrl | nr-latest.py:819-856 | any run of events keeps the URL and title and the invariant that the main-URL timer fires once and connects the handlers |
| Window.FailureSchedulesOneRetry | nr-latest.py:839-846 | once the content is loading, a failed load adds exactly one pending retry and asks for exactly one 3000 ms timer |
| Window.SuccessSchedulesNothing | nr-latest.py:839-842 | a successful load changes nothing and schedules nothing |
| Window.RetryNavigatesToSameUrl | nr-latest.py:853-856 | a retry consumes its timer and navigates to the shell's own URL |
| Window.PlaceholderLoadsIgnored | nr-latest.py:819-830 | before the handlers are connected, load results and progress have no effect |
| Window.FailureCycle | nr-latest.py:839-856 | with the handlers connected, a failed load and its retry come back to the same state after one 3000 ms retry timer and one navigation to the shell's URL |
| Window.RetriesUnbounded | nr-latest.py:839-856 | any number of failure/retry cycles produces that many retry timers and navigations to the same URL and returns to the same state |
| Window.OpenedRunKeepsUrl | nr-latest.py:691-718 | from an opened window, every run keeps the configured or default URL and has at most one set of handlers connected |
| Plugins.LoadAll | nr-latest.py:467-476 | the load finishes iff no module raises; otherwise it stops at the first one that raises and names it; the registered names are exactly those of the modules before the stopping point that define `register`, in glob order, and their number is the count printed |
| Plugins.LoadModules | nr-latest.py:455-470 | a missing modules directory loads nothing; otherwise the non-hidden `.py` files are loaded in order, the suffix matched without regard to case on Windows and exactly elsewhere; a picked file whose suffix is not exactly `.py` gets no spec and aborts the load |
| Plugins.WindowsPicksAtLeastAsMuch | nr-latest.py:466 | every file the glob picks off Windows is picked on Windows too |
| Plugins.UpperSuffixOnlyOnWindows | nr-latest.py:466 | `Plugin.PY` is picked on Windows and not elsewhere |
| Plugins.UpperSuffixCrashesOnWindows | nr-latest.py:466-470 | on Windows a `Plugin.PY` is picked and then aborts the load before anything registers; elsewhere it is not picked and the load is empty |
| Plugins.CleanLoadCountsHooks | nr-latest.py:463-476 | when no picked module raises (neither its spec lookup, its code nor its `register`), the load finishes and the printed count is the number of modules that define `register` |
| Plugins.OneFailureAbortsAll | nr-latest.py:468-470 | a single module whose code raises aborts the whole load |
| Plugins.RenderAnyTemplate | nr-latest.py:529-537 | a page is returned iff the path ends in `.html` and rendering succeeded, and it is the rendered page; the status is 404 exactly for a path without the suffix or a failed render |
| Plugins.HtmlSuffixPasses | nr-latest.py:531 | any path with `.html` appended passes the guard |
| Launcher.ResolveServer | nr-latest.py:659-663 | the settings are host, `getint` port and `getboolean` debug with fallbacks 127.0.0.1, 5000, True, and an error exactly when port or debug does not parse |
| Launcher.ServerDefaults | nr-latest.py:660-662 | without a Server section the server is started on 127.0.0.1:5000 with debug on |
| Launcher.ServerPortRoundTrip | nr-latest.py:661 | a port written as `str(n)` is bound as n |
| Launcher.NormalizedModeIsBare | nr-latest.py:900 | `.strip().lower()` leaves a word with no whitespace at either end and no upper-case ASCII letter, no longer than the raw value |
| Launcher.ResolveMode | nr-latest.py:900-929 | the mode is window iff the stripped, lower-cased `Runtime.mode` (default "both") is "window", server iff it is "server", and both for every other value |
| Launcher.ModeDefaultsToBoth | nr-latest.py:900 | an absent mode means both |
| Launcher.ModeIgnoresCaseAndPadding | nr-latest.py:900 | "window"/"server" in any letter case with any surrounding whitespace are recognised |
| Launcher.ShellActions | nr-latest.py:936-939 | exactly one shell is opened when the window can be constructed, none otherwise, and never a server |
| Launcher.ServeInline | nr-latest.py:928 | `app.run` is called in this thread exactly when its settings resolve, and otherwise the failure is reported and Enter awaited; no shell |
| Launcher.Detach | nr-latest.py:926 | the detached spawn starts one server unit on Windows; elsewhere the missing constant is reported and nothing starts |
| Launcher.ModeActions | nr-latest.py:916-949 | "window" opens the shell only; "server" spawns the detached console with server_console and otherwise serves inline; "both" starts one server unit first (spawn or daemon thread) and then the shell; with server_console off Windows both "server" and "both" only report the failure and wait; never more than one of each |
| Launcher.Dispatch | nr-latest.py:869-949 | at most one server unit and one shell on every platform; `--new-project` scaffolds and starts nothing; a missing config file gives the hint and starts nothing; a bad `server_console` is reported and starts nothing |
| Launcher.WindowModeStartsNoServer | nr-latest.py:916-921 | "window" opens the shell and starts no server |
| Launcher.ServerModeStartsNoShell | nr-latest.py:922-949 | "server" never opens a shell: with server_console a detached spawn on Windows and a reported failure with no server elsewhere; without it the inline server |
| Launcher.BothModeStartsOneServerThenShell | nr-latest.py:929-949 | any other mode starts exactly one server unit (detached spawn iff server_console, else the daemon thread) and then the shell, except that server_console off Windows reports the failed spawn and starts neither |
| Launcher.ShellUrlMatchesServer | nr-latest.py:659-663 | without `Window.url`, the shell's URL names the host and port the server is asked to bind, when the port is written as `str(n)` |
| Launcher.ServerWithoutConsole | nr-latest.py:900-901 | mode "server" with server_console "false" resolves to the server-only mode with server_console off |
| Launcher.ServerScenario | nr-latest.py:900-928 | mode "server", server_console "false" and port 5000 call `app.run` inline on 127.0.0.1:5000 and do nothing else |
| Launcher.Guard | nr-latest.py:951-959 | at most one server unit and one shell; with the `--only-server` marker no shell and no scaffolding |
| Launcher.AfterFlags | nr-latest.py:463-478 | after the flags, a raising plugin crashes the import and nothing else happens; otherwise the flags are followed by the plugin report with the registered names and then by exactly what the guard does |
| Launcher.Boot | nr-latest.py:47-121 | a non-boolean `Window.Potato` crashes the import before anything else; otherwise the GPU flags come first and the plugin load second, every server unit and shell comes after both, and at most one of each is started |
| Launcher.BootAppliesAcceleratedFlags | nr-latest.py:103-121 | the flags applied at start are never the software-rendering set |
| Launcher.MissingConfigStartsNothing | nr-latest.py:892-898 | with no config file and no flags the run ends with the hint and starts no server and no shell |
| Launcher.OnlyServerMarkerWins | nr-latest.py:951-957 | the `--only-server` marker serves and does nothing else, whatever the other flag and the config file say |

## Left out

- Flask routing, `index`/`game`/`game_file`, static serving and `/system/exit`
  are HTTP and process plumbing. `/system/exit` is the 0.5 s timer and
  `os._exit`.
- `GET /config/get` is left out. In this model it would only echo the store.
- Qt widgets and WebEngine settings (`setup_web_engine_settings`) are left out.
  So are `show()`, `QApplication.exec()` and the exit code given to
  `sys.exit`. These are UI.
- The probe commands and `subprocess.Popen` are left out: the probe result is
  an input, and the spawn is an emitted action.
- Writing to `os.environ` is left out: `EnvFlags` returns the settings instead.
- Threads are left out. If the daemon server thread's settings do not parse,
  the thread dies on its own. The model only records the thread's start,
  together with its settings or the error.
- `importlib` loading is left out. Each module file is a record of what
  executing it does.
- Persisting the config file is left out. The write goes to a relative path,
  not to the resolved config path, so no disk round trip is modelled. Whether
  the write succeeded is an input.
- Parsing the config file is left out, and its parse errors with it.
- configparser value interpolation (`%` in values) and DEFAULT-section
  inheritance are left out.
- The empty section name is left out. configparser routes it into its
  defaults.
- Scaffolding (`create_new_project`) becomes one `CreateProject` action, and
  whether it raised is an input.
- `start_music_controller` is left out: it imports a module that is not part of
  this model, and it cannot affect the dispatch.
- `input()` prompts and printed diagnostics become `WaitForEnter` and
  `ReportFailure` at most.
- argparse's own error exit for unknown arguments and its prefix abbreviations
  (`--new`) are left out. The flags arrive already parsed.
- The human-readable descriptions in the gpu-info table are left out. So is the
  name text of its "unknown" row, which is shown in Russian.
- Config.OptionKey: lower-cases ASCII letters only. Python's `str.lower` also
  changes other letters. `Text.Lower` makes the same simplification for the
  probe text and the mode. None of the keywords compared
  (nvidia/amd/radeon/intel, window/server, the boolean words) can be completed
  by a non-ASCII character that lower-cases into ASCII: only KELVIN SIGN
  (to `k`) and `İ` (to `i` plus a combining dot) do that.
- Launcher.ServeInline: the failures of `app.run` itself are not modelled,
  such as a port that is taken or cannot be bound. `RunServer` records the
  call with its settings, not a server that is running.
- Text.ParseInt: does not model CPython's limit on the length of integer
  strings (4300 digits by default, from 3.11 and the 3.7-3.10 security
  releases): a longer literal is accepted here, while `int()` raises there.
  For the same reason `ParseIntOfIntToString` holds for every integer, while
  `str(n)` raises in CPython for |n| >= 10^4300. `Config.GetInt` and
  `Window.ReadGeometry` inherit this.
- Text.ParseInt: accepts ASCII decimal digits only. It does not accept the `_`
  digit separators or the non-ASCII decimal digits that Python's `int()` also
  takes.
- Config.PyStr: covers JSON strings, integers, booleans and null. It does not
  cover floats, arrays or objects.
- Config.SetConfig: a non-empty array or string body is reduced to whether all
  three field names are in it. The membership or substring test itself is not
  modelled.

=== FILE: config.dfy ===
/**
 * The in-memory configuration store: configparser's section -> option -> string
 * mapping, its defaulted and typed reads, and the two routes that touch it
 * (`POST /config/set` and `GET /config/section/<name>`).
 */
module Config {
  import opened Wrappers
  import opened Text

  type Section = map<string, string>
  type Store = map<string, Section>

  /** configparser keeps this name for its defaults and refuses to add it as a section. */
  const DefaultSection := "DEFAULT"

  /** configparser's `optionxform`: option names are stored and looked up lower-cased. */
  function OptionKey(key: string): string {
    Lower(key)
  }

  /** What a parsed store looks like: no DEFAULT section, every option name already normalised. */
  ghost predicate WellFormed(store: Store) {
    && DefaultSection !in store
    && forall name, key :: name in store && key in store[name] ==> OptionKey(key) == key
  }

  /** Why a typed read raised `ValueError`, or why `config['Window']` raised `KeyError`. */
  datatype ConfigError =
    | NotBoolean(section: string, key: string, text: string)
    | NotInteger(section: string, key: string, text: string)
    | MissingSection(section: string)

  /** `config.get(section, key)`: the stored text, or `None` for a missing section or option. */
  function Lookup(store: Store, section: string, key: string): (r: Option<string>)
    ensures r.Some? <==> section in store && OptionKey(key) in store[section]
    ensures r.Some? ==> r.value == store[section][OptionKey(key)]
  {
    if section in store && OptionKey(key) in store[section]
    then Some(store[section][OptionKey(key)])
    else None
  }

  /** `config.get(section, key, fallback=...)`. */
  function Get(store: Store, section: string, key: string, fallback: string): (r: string)
    ensures Lookup(store, section, key).None? ==> r == fallback
    ensures Lookup(store, section, key).Some? ==> r == Lookup(store, section, key).value
  {
    match Lookup(store, section, key)
    case Some(text) => text
    case None => fallback
  }

  /** configparser's boolean words, compared after lower-casing (no stripping). */
  function ParseBool(text: string): (r: Option<bool>)
    ensures r == Some(true) <==> Lower(text) in {"1", "yes", "true", "on"}
    ensures r == Some(false) <==> Lower(text) in {"0", "no", "false", "off"}
  {
    var t := Lower(text);
    if t == "1" || t == "yes" || t == "true" || t == "on" then Some(true)
    else if t == "0" || t == "no" || t == "false" || t == "off" then Some(false)
    else None
  }

  /** The fallback shows through exactly when the section or the option is missing. */
  lemma FallbackOnlyWhenAbsent(store: Store, section: string, key: string, a: string, b: string)
    requires a != b
    ensures Get(store, section, key, a) == a && Get(store, section, key, b) == b
        <==> section !in store || OptionKey(key) !in store[section]
  {
  }

  /** An option is found under any letter case of its name. */
  lemma LookupIgnoresKeyCase(store: Store, section: string, key: string)
    ensures Lookup(store, section, key) == Lookup(store, section, Lower(key))
  {
    LowerIdempotent(key);
  }

  /**
   * The boolean words are recognised in any letter case, but padding is not
   * stripped: a text that starts or ends with whitespace is never a boolean.
   */
  lemma ParseBoolIgnoresCaseNotPadding(text: string)
    ensures ParseBool(text) == ParseBool(Lower(text))
    ensures |text| > 0 && (IsSpace(text[0]) || IsSpace(text[|text| - 1])) ==> ParseBool(text) == None
  {
    LowerIdempotent(text);
    if |text| > 0 && (IsSpace(text[0]) || IsSpace(text[|text| - 1])) {
      var t := Lower(text);
      LowerEnds(text);
      assert IsSpace(t[0]) || IsSpace(t[|t| - 1]);
      assert t !in {"1", "yes", "true", "on", "0", "no", "false", "off"};
    }
  }

  /** `config.getboolean(section, key, fallback=...)`: the fallback covers absence only. */
  function GetBool(store: Store, section: string, key: string, fallback: bool): (r: Result<bool, ConfigError>)
    ensures Lookup(store, section, key).None? ==> r == Success(fallback)
    ensures Lookup(store, section, key).Some? ==>
      var text := Lookup(store, section, key).value;
      (r.Failure? <==> ParseBool(text).None?) &&
      (r.Success? ==> r.value == ParseBool(text).value)
  {
    match Lookup(store, section, key)
    case None => Success(fallback)
    case Some(text) =>
      match ParseBool(text)
      case Some(b) => Success(b)
      case None => Failure(NotBoolean(section, key, text))
  }

  /** `config.getint(section, key, fallback=...)`: the fallback covers absence only. */
  function GetInt(store: Store, section: string, key: string, fallback: int): (r: Result<int, ConfigError>)
    ensures Lookup(store, section, key).None? ==> r == Success(fallback)
    ensures Lookup(store, section, key).Some? ==>
      var text := Lookup(store, section, key).value;
      (r.Failure? <==> ParseInt(text).None?) &&
      (r.Success? ==> r.value == ParseInt(text).value)
  {
    match Lookup(store, section, key)
    case None => Success(fallback)
    case Some(text) =>
      match ParseInt(text)
      case Some(n) => Success(n)
      case None => Failure(NotInteger(section, key, text))
  }

  // ---------------------------------------------------------------- POST /config/set

  /** The JSON values a request body can carry in its fields. */
  datatype Value = VStr(s: string) | VInt(i: int) | VBool(b: bool) | VNull

  /** Python's `str(value)` for those values. */
  function PyStr(v: Value): string {
    match v
    case VStr(s) => s
    case VInt(i) => IntToString(i)
    case VBool(b) => if b then "True" else "False"
    case VNull => "None"
  }

  /**
   * What `request.get_json()` hands to `set_config`, sorted by the path each
   * kind takes through the handler.
   */
  datatype Body =
      // `get_json` raised: a wrong Content-Type or an undecodable body (Werkzeug 2.1 and later)
    | Unreadable
      // no JSON at all with older Werkzeug (`None`), or `null`, `false`, `0`, `""`, `[]`, `{}`
    | Falsy
      // a JSON object
    | Object(fields: map<string, Value>)
      // a non-empty array or string, where `in` tests membership or substring;
      // whether all three field names are found in it
    | Sequence(holdsAllNames: bool)
      // a non-zero number or `true`, on which `in` raises `TypeError`
    | Scalar

  datatype SetReply = Updated | InvalidParams | SetFailed {
    function Status(): int {
      match this
      case Updated => 200
      case InvalidParams => 400
      case SetFailed => 500
    }
  }

  /** The body is an object naming all three fields (an empty object fails this too, like `not data`). */
  predicate HasFields(body: Body) {
    body.Object? && "section" in body.fields && "key" in body.fields && "value" in body.fields
  }

  /** The guard at the top of `set_config` answers 400 without raising. */
  predicate MissingFields(body: Body) {
    || body.Falsy?
    || (body.Sequence? && !body.holdsAllNames)
    || (body.Object? && !HasFields(body))
  }

  /** A request configparser accepts: string section other than DEFAULT, string key. */
  predicate ValidRequest(body: Body) {
    && HasFields(body)
    && body.fields["section"].VStr? && body.fields["section"].s != DefaultSection
    && body.fields["key"].VStr?
  }

  /** `b` agrees with `a` on every section except `name`. */
  ghost predicate SameElsewhere(a: Store, b: Store, name: string) {
    forall s :: s != name ==> (s in a <==> s in b) && (s in a ==> a[s] == b[s])
  }

  /** Section `name` of `b` agrees with that of `a` (empty when absent) on every option except `key`. */
  ghost predicate SameOtherOptions(a: Store, b: Store, name: string, key: string)
    requires name in b
  {
    var before := if name in a then a[name] else map[];
    forall k :: k != key ==> (k in before <==> k in b[name]) && (k in before ==> before[k] == b[name][k])
  }

  /**
   * `set_config`. `persisted` is whether rewriting the file succeeded; the
   * in-memory change is made before that write, so a failed write still
   * leaves it in place while the reply is 500. A key that is not a string is
   * refused only after the section has been added. A body that makes
   * `get_json` or the guard raise, or that passes the guard without being an
   * object (indexing it raises), is a 500 that changes nothing.
   */
  function SetConfig(store: Store, body: Body, persisted: bool): (r: (Store, SetReply))
    ensures !HasFields(body) ==> r.0 == store
    ensures r.1.Status() == 200 <==> ValidRequest(body) && persisted
    ensures r.1.Status() == 400 <==> MissingFields(body)
    ensures r.1 == InvalidParams <==> MissingFields(body)
    ensures ValidRequest(body) ==>
      var name := body.fields["section"].s;
      var key := OptionKey(body.fields["key"].s);
      && name in r.0 && key in r.0[name]
      && r.0[name][key] == PyStr(body.fields["value"])
      && SameElsewhere(store, r.0, name)
      && SameOtherOptions(store, r.0, name, key)
    ensures HasFields(body) && !ValidRequest(body) ==>
      if body.fields["section"].VStr? && body.fields["section"].s != DefaultSection then
        var name := body.fields["section"].s;
        && name in r.0 && r.0[name] == (if name in store then store[name] else map[])
        && SameElsewhere(store, r.0, name)
      else r.0 == store
    ensures WellFormed(store) ==> WellFormed(r.0)
  {
    if !HasFields(body) then (store, if MissingFields(body) then InvalidParams else SetFailed)
    else
      var data := body.fields;
      var section, key, value := data["section"], data["key"], data["value"];
      if !section.VStr? || section.s == DefaultSection then (store, SetFailed)
      else
        var name := section.s;
        var withSection := if name in store then store else store[name := map[]];
        if !key.VStr? then (withSection, SetFailed)
        else
          LowerIdempotent(key.s);
          var updated := withSection[name := withSection[name][OptionKey(key.s) := PyStr(value)]];
          (updated, if persisted then Updated else SetFailed)
  }

  // ---------------------------------------------------------------- GET /config/section/<name>

  datatype SectionReply = SectionFound(name: string, data: Section) | SectionNotFound {
    function Status(): int {
      if SectionFound? then 200 else 404
    }
  }

  /** `get_config_section`: 404 unless the section exists, otherwise its options. */
  function GetSection(store: Store, name: string): (r: SectionReply)
    ensures r.SectionFound? <==> name in store
    ensures r.SectionFound? ==> r.name == name && r.data == store[name]
    ensures r.Status() == 404 <==> name !in store
  {
    if name in store then SectionFound(name, store[name]) else SectionNotFound
  }

  // ---------------------------------------------------------------- properties

  /** An accepted set is read back by `config.get` under any fallback, in any letter case of the key. */
  lemma SetThenGet(store: Store, body: Body, persisted: bool, key: string, fallback: string)
    requires ValidRequest(body) && OptionKey(key) == OptionKey(body.fields["key"].s)
    ensures Get(SetConfig(store, body, persisted).0, body.fields["section"].s, key, fallback)
         == PyStr(body.fields["value"])
  {
  }

  /** A valid set turns a 404 section lookup into a 200 holding the new binding. */
  lemma SetThenSectionFound(store: Store, body: Body, persisted: bool)
    requires ValidRequest(body)
    ensures
      var name := body.fields["section"].s;
      var reply := GetSection(SetConfig(store, body, persisted).0, name);
      && reply.SectionFound?
      && reply.data[OptionKey(body.fields["key"].s)] == PyStr(body.fields["value"])
  {
  }

  /** Every other read gives what it gave before the set, whatever the reply. */
  lemma SetLeavesOtherReads(store: Store, body: Body, persisted: bool,
                            section: string, key: string, fallback: string)
    requires HasFields(body)
    requires body.fields["section"].VStr? ==>
               (section != body.fields["section"].s
                || (body.fields["key"].VStr? && OptionKey(key) != OptionKey(body.fields["key"].s)))
    ensures Get(SetConfig(store, body, persisted).0, section, key, fallback) == Get(store, section, key, fallback)
  {
  }

  /** Setting an integer and reading it with `getint` gives the integer back. */
  lemma SetThenGetInt(store: Store, body: Body, persisted: bool, n: int, fallback: int)
    requires ValidRequest(body) && body.fields["value"] == VInt(n)
    ensures GetInt(SetConfig(store, body, persisted).0, body.fields["section"].s, body.fields["key"].s, fallback)
         == Success(n)
  {
    ParseIntOfIntToString(n);
  }

  /** Setting a JSON boolean stores `True`/`False`, which `getboolean` reads back. */
  lemma SetThenGetBool(store: Store, body: Body, persisted: bool, b: bool, fallback: bool)
    requires ValidRequest(body) && body.fields["value"] == VBool(b)
    ensures GetBool(SetConfig(store, body, persisted).0, body.fields["section"].s, body.fields["key"].s, fallback)
         == Success(b)
  {
    if b {
      assert Lower("True") == "true";
    } else {
      assert Lower("False") == "false";
    }
  }
}

=== FILE: gpu.dfy ===
/**
 * The hardware profiler: `get_gpu_type`, the table of rendering environment
 * flags chosen from its answer, and the vendor lookup of `GET /system/gpu-info`.
 */
module Gpu {
  import opened Text
  import opened Platforms

  /** What the probe (`powershell ... Win32_VideoController` or `lspci`) gave back. */
  datatype ProbeOutcome =
    | Exited(code: int, stdout: string)
    | Raised  // the process could not start, timed out after 10 s, or its output did not decode

  /** The answers `get_gpu_type` can give; it has no `"unknown"` answer. */
  datatype GpuType = Nvidia | Amd | Intel

  /** The string `get_gpu_type` returns for each answer. */
  function Name(g: GpuType): string {
    match g
    case Nvidia => "nvidia"
    case Amd => "amd"
    case Intel => "intel"
  }

  /** The text searched for keywords: stripped as well on Windows, lower-cased on both. */
  function ProbeText(platform: Platform, stdout: string): string {
    if platform == Windows then Lower(Strip(stdout)) else Lower(stdout)
  }

  predicate Succeeded(probe: ProbeOutcome) {
    probe.Exited? && probe.code == 0
  }

  /** The lower-cased probe output mentions `keyword` (whitespace and platform aside). */
  ghost predicate Mentions(probe: ProbeOutcome, keyword: string)
    requires probe.Exited?
  {
    Occurs(Lower(probe.stdout), keyword)
  }

  /** The `in` test `get_gpu_type` performs answers whether the output mentions the keyword. */
  lemma SearchFindsMention(platform: Platform, stdout: string, keyword: string)
    requires |keyword| > 0 && NoSpace(keyword)
    ensures Contains(ProbeText(platform, stdout), keyword) <==> Mentions(Exited(0, stdout), keyword)
  {
    ContainsIffOccurs(ProbeText(platform, stdout), keyword);
    if platform == Windows {
      OccursThroughStrip(stdout, keyword);
    }
  }

  /** None of the vendor keywords contains whitespace. */
  lemma KeywordsHaveNoSpace()
    ensures NoSpace("nvidia") && NoSpace("amd") && NoSpace("radeon")
  {
  }

  /** `get_gpu_type`: keyword priority nvidia, then amd/radeon, and intel for everything else. */
  function Classify(platform: Platform, probe: ProbeOutcome): (r: GpuType)
    ensures r == Nvidia <==> Succeeded(probe) && Mentions(probe, "nvidia")
    ensures r == Amd <==>
      Succeeded(probe) && !Mentions(probe, "nvidia") && (Mentions(probe, "amd") || Mentions(probe, "radeon"))
    ensures r == Intel <==>
      !Succeeded(probe) || (!Mentions(probe, "nvidia") && !Mentions(probe, "amd") && !Mentions(probe, "radeon"))
  {
    match probe
    case Raised => Intel
    case Exited(code, stdout) =>
      if code != 0 then Intel
      else
        var text := ProbeText(platform, stdout);
        KeywordsHaveNoSpace();
        SearchFindsMention(platform, stdout, "nvidia");
        SearchFindsMention(platform, stdout, "amd");
        SearchFindsMention(platform, stdout, "radeon");
        if Contains(text, "nvidia") then Nvidia
        else if Contains(text, "amd") || Contains(text, "radeon") then Amd
        else if Contains(text, "intel") then Intel
        else Intel
  }

  /** Whatever surrounds it and whatever else is listed, an NVIDIA device written in any case wins. */
  lemma NvidiaWins(platform: Platform, before: string, word: string, after: string)
    requires Lower(word) == "nvidia"
    ensures Classify(platform, Exited(0, before + word + after)) == Nvidia
  {
    var out := before + word + after;
    LowerConcat(before + word, after);
    LowerConcat(before, word);
    assert Lower(out)[|before|..|before| + 6] == "nvidia";
    assert OccursAt(Lower(out), "nvidia", |before|);
  }

  /** Without an NVIDIA mention, an AMD/Radeon mention in any case wins over an Intel one. */
  lemma AmdBeatsIntel(platform: Platform, before: string, word: string, after: string)
    requires Lower(word) == "amd" || Lower(word) == "radeon"
    requires !Occurs(Lower(before + word + after), "nvidia")
    ensures Classify(platform, Exited(0, before + word + after)) == Amd
  {
    var out := before + word + after;
    LowerConcat(before + word, after);
    LowerConcat(before, word);
    assert Lower(out)[|before|..|before| + |word|] == Lower(word);
    assert OccursAt(Lower(out), Lower(word), |before|);
  }

  /** Windows strips the output before searching; the answer is the same as on other systems. */
  lemma ClassifyIgnoresPlatform(probe: ProbeOutcome)
    ensures Classify(Windows, probe) == Classify(OtherOs, probe)
  {
  }

  // ---------------------------------------------------------------- rendering flags

  const ChromiumFlags := "QTWEBENGINE_CHROMIUM_FLAGS"
  const QtOpenGl := "QT_OPENGL"
  const QuickBackend := "QT_QUICK_BACKEND"

  /** The switches placed in QTWEBENGINE_CHROMIUM_FLAGS for a vendor name. */
  function ChromiumSwitches(gpuType: string): seq<string> {
    if gpuType == "nvidia" || gpuType == "amd" then
      ["--enable-gpu", "--enable-accelerated-video-decode", "--disable-gpu-sandbox"]
    else if gpuType == "intel" then
      ["--enable-gpu", "--use-gl=desktop", "--disable-gpu-sandbox", "--enable-accelerated-video-decode"]
    else
      ["--disable-gpu", "--disable-software-rasterizer"]
  }

  /** `" ".join(switches)`. */
  function JoinSwitches(switches: seq<string>): string {
    if |switches| == 0 then ""
    else if |switches| == 1 then switches[0]
    else switches[0] + " " + JoinSwitches(switches[1..])
  }

  /** The environment settings the launcher writes for a vendor name (the if/elif chain after `get_gpu_type`). */
  function EnvFlags(gpuType: string): (r: map<string, string>)
    ensures ChromiumFlags in r && r[ChromiumFlags] == JoinSwitches(ChromiumSwitches(gpuType))
    ensures QtOpenGl in r <==> gpuType == "nvidia" || gpuType == "intel"
    ensures QtOpenGl in r ==> r[QtOpenGl] == "desktop"
    ensures QuickBackend in r <==> gpuType != "nvidia" && gpuType != "amd"
    ensures QuickBackend in r ==> r[QuickBackend] == "software"
    ensures r.Keys <= {ChromiumFlags, QtOpenGl, QuickBackend}
  {
    var chromium := JoinSwitches(ChromiumSwitches(gpuType));
    if gpuType == "nvidia" then map[ChromiumFlags := chromium, QtOpenGl := "desktop"]
    else if gpuType == "amd" then map[ChromiumFlags := chromium]
    else if gpuType == "intel" then
      map[ChromiumFlags := chromium, QuickBackend := "software", QtOpenGl := "desktop"]
    else map[ChromiumFlags := chromium, QuickBackend := "software"]
  }

  /** GPU rendering is switched on exactly for the three vendor names, and off (software) otherwise. */
  lemma AcceleratedIffKnownVendor(gpuType: string)
    ensures "--enable-gpu" in ChromiumSwitches(gpuType) <==> gpuType in {"nvidia", "amd", "intel"}
    ensures "--disable-gpu" in ChromiumSwitches(gpuType) <==> gpuType !in {"nvidia", "amd", "intel"}
  {
  }

  /** Each answer of the classifier selects a GPU-enabled row of the table. */
  lemma VendorFlagsAreAccelerated(g: GpuType)
    ensures var t := Name(g);
      && "--enable-gpu" in ChromiumSwitches(t)
      && "--disable-gpu" !in ChromiumSwitches(t)
      && EnvFlags(t) != EnvFlags("unknown")
  {
    var t := Name(g);
    assert JoinSwitches(ChromiumSwitches(t))[2] == 'e';
    assert JoinSwitches(ChromiumSwitches("unknown"))[2] == 'd';
  }

  /** The software-rendering branch of the table is never taken at startup: the classifier never says "unknown". */
  lemma ClassifiedFlagsAreAccelerated(platform: Platform, probe: ProbeOutcome)
    ensures var t := Name(Classify(platform, probe));
      && "--enable-gpu" in ChromiumSwitches(t)
      && "--disable-gpu" !in ChromiumSwitches(t)
      && EnvFlags(t) != EnvFlags("unknown")
  {
    VendorFlagsAreAccelerated(Classify(platform, probe));
  }

  // ---------------------------------------------------------------- GET /system/gpu-info

  datatype RendererInfo = RendererInfo(name: string, renderer: string)

  /** The route's `renderer_info` table (descriptions left out). */
  const RendererTable: map<string, RendererInfo> := map[
    "nvidia" := RendererInfo("NVIDIA GPU", "hardware"),
    "amd" := RendererInfo("AMD GPU", "hardware"),
    "intel" := RendererInfo("Intel GPU", "opengl"),
    "unknown" := RendererInfo("Unknown GPU", "software")
  ]

  datatype GpuInfo = GpuInfo(gpuType: string, name: string, renderer: string)

  /** `renderer_info.get(gpu_type, renderer_info["unknown"])`, then `info["type"] = gpu_type`. */
  function GpuInfoFor(gpuType: string): (r: GpuInfo)
    ensures r.gpuType == gpuType
    ensures gpuType in RendererTable ==>
      r.name == RendererTable[gpuType].name && r.renderer == RendererTable[gpuType].renderer
    ensures gpuType !in RendererTable ==> r.renderer == "software"
  {
    var info := if gpuType in RendererTable then RendererTable[gpuType] else RendererTable["unknown"];
    GpuInfo(gpuType, info.name, info.renderer)
  }

  /** Each answer of the classifier has its own row in the table. */
  lemma VendorHasRow(g: GpuType)
    ensures Name(g) in RendererTable && Name(g) != "unknown"
    ensures GpuInfoFor(Name(g)).renderer == (if g == Intel then "opengl" else "hardware")
  {
  }

  /** `GET /system/gpu-info`: a fresh probe, classified, then looked up. */
  function GpuInfoRoute(platform: Platform, probe: ProbeOutcome): (r: GpuInfo)
    ensures r.gpuType != "unknown" && r.gpuType in RendererTable
    ensures r.renderer != "software"
    ensures r.renderer == "opengl" <==> Classify(platform, probe) == Intel
  {
    var g := Classify(platform, probe);
    VendorHasRow(g);
    GpuInfoFor(Name(g))
  }
}

=== FILE: launcher.dfy ===
/**
 * The launcher's control flow: what happens at import time (configuration
 * read, GPU flags, plugins), then either the `--only-server` guard or
 * `main()`, which picks one process topology from `Runtime.mode` and
 * `Runtime.server_console`. Every side effect is an emitted `Action`.
 */
module Launcher {
  import opened Wrappers
  import opened Text
  import opened Platforms
  import opened Config
  import opened Gpu
  import opened Window
  import opened Plugins

  /** The two flags: `--new-project` as argparse sees it, and the literal `--only-server` marker in argv. */
  datatype Args = Args(newProject: bool, onlyServer: bool)

  datatype Mode = WindowOnly | ServerOnly | Both

  /** The arguments `run_flask` passes to `app.run`. */
  datatype ServerSettings = ServerSettings(host: string, port: int, debug: bool)

  datatype Action =
    | Crash                                   // an exception escapes at import time
    | ApplyRenderingFlags(flags: map<string, string>)
    | PluginsLoaded(modules: seq<string>)
    | CreateProject                           // create_new_project()
    | ShowHint                                // "run with --new-project"
    | ReportFailure                           // an exception caught and printed
    | WaitForEnter                            // input() before returning
    | RunServer(settings: ServerSettings)     // app.run in this thread, blocking
    | SpawnServerProcess                      // Popen([exe, file, '--only-server'], new console)
    | StartServerThread(server: Result<ServerSettings, ConfigError>)  // daemon thread running run_flask
    | OpenShell(shell: Shell, effects: seq<Effect>)  // QApplication + MainWindow + exec

  // ---------------------------------------------------------------- counting units

  predicate IsServerUnit(a: Action) {
    a.RunServer? || a.SpawnServerProcess? || a.StartServerThread?
  }

  function ServerUnits(acts: seq<Action>): nat {
    if |acts| == 0 then 0 else (if IsServerUnit(acts[0]) then 1 else 0) + ServerUnits(acts[1..])
  }

  function Shells(acts: seq<Action>): nat {
    if |acts| == 0 then 0 else (if acts[0].OpenShell? then 1 else 0) + Shells(acts[1..])
  }

  lemma {:induction false} CountsAdd(a: seq<Action>, b: seq<Action>)
    ensures ServerUnits(a + b) == ServerUnits(a) + ServerUnits(b)
    ensures Shells(a + b) == Shells(a) + Shells(b)
    decreases |a|
  {
    if |a| == 0 {
      assert a + b == b;
    } else {
      assert (a + b)[1..] == a[1..] + b;
      CountsAdd(a[1..], b);
    }
  }

  /** Counts of a one-action list. */
  lemma CountsOne(a: Action)
    ensures ServerUnits([a]) == (if IsServerUnit(a) then 1 else 0)
    ensures Shells([a]) == (if a.OpenShell? then 1 else 0)
  {
    assert [a][1..] == [];
  }

  /** Counts of a two-action list. */
  lemma CountsTwo(a: Action, b: Action)
    ensures ServerUnits([a, b]) == (if IsServerUnit(a) then 1 else 0) + (if IsServerUnit(b) then 1 else 0)
    ensures Shells([a, b]) == (if a.OpenShell? then 1 else 0) + (if b.OpenShell? then 1 else 0)
  {
    assert [a, b] == [a] + [b];
    CountsOne(a);
    CountsOne(b);
    CountsAdd([a], [b]);
  }

  /** Two actions that start nothing, put in front of a list, shift it by two and add no unit. */
  lemma PrependTwo(a: Action, b: Action, rest: seq<Action>)
    requires !IsServerUnit(a) && !a.OpenShell? && !IsServerUnit(b) && !b.OpenShell?
    ensures var r := [a, b] + rest;
      && |r| == |rest| + 2 && r[0] == a && r[1] == b && r[2..] == rest
      && ServerUnits(r) == ServerUnits(rest) && Shells(r) == Shells(rest)
      && (forall x :: x in r <==> x == a || x == b || x in rest)
  {
    CountsTwo(a, b);
    CountsAdd([a, b], rest);
    assert ([a, b] + rest)[2..] == rest;
  }

  // ---------------------------------------------------------------- configuration reads

  /** `run_flask`'s reads: host, then `getint` port, then `getboolean` debug. */
  function ResolveServer(store: Store): (r: Result<ServerSettings, ConfigError>)
    ensures r.Success? <==>
      GetInt(store, "Server", "port", 5000).Success? && GetBool(store, "Server", "debug", true).Success?
    ensures r.Success? ==>
      && r.value.host == Get(store, "Server", "host", "127.0.0.1")
      && r.value.port == GetInt(store, "Server", "port", 5000).value
      && r.value.debug == GetBool(store, "Server", "debug", true).value
  {
    var host := Get(store, "Server", "host", "127.0.0.1");
    match GetInt(store, "Server", "port", 5000)
    case Failure(e) => Failure(e)
    case Success(port) =>
      match GetBool(store, "Server", "debug", true)
      case Failure(e) => Failure(e)
      case Success(debug) => Success(ServerSettings(host, port, debug))
  }

  /** Without a Server section the server binds 127.0.0.1:5000 in debug mode. */
  lemma ServerDefaults(store: Store)
    requires "Server" !in store
    ensures ResolveServer(store) == Success(ServerSettings("127.0.0.1", 5000, true))
  {
  }

  /** A port written by `str(n)` (as `/config/set` writes it) is the port the server binds. */
  lemma ServerPortRoundTrip(store: Store, n: int)
    requires Lookup(store, "Server", "port") == Some(IntToString(n))
    requires Lookup(store, "Server", "debug").None?
    ensures ResolveServer(store).Success? && ResolveServer(store).value.port == n
  {
    ParseIntOfIntToString(n);
  }

  /**
   * Without `Window.url`, the shell loads the host and port the inline server
   * binds, when the port was written as `str(n)`.
   */
  lemma ShellUrlMatchesServer(store: Store, n: int)
    requires Open(store).Success?
    requires Lookup(store, "Window", "url").None?
    requires Lookup(store, "Server", "port") == Some(IntToString(n))
    requires ResolveServer(store).Success?
    ensures var settings := ResolveServer(store).value;
      Open(store).value.0.url == "http://" + settings.host + ":" + IntToString(settings.port) + "/"
  {
    ParseIntOfIntToString(n);
  }

  /** `.strip().lower()` applied to the mode string. */
  function NormalizeMode(raw: string): string {
    Lower(Strip(raw))
  }

  /** The normal form is a lower-case word with no padding left, no longer than the raw text. */
  lemma NormalizedModeIsBare(raw: string)
    ensures var r := NormalizeMode(raw);
      && |r| <= |raw|
      && (|r| > 0 ==> !IsSpace(r[0]) && !IsSpace(r[|r| - 1]))
      && (forall i :: 0 <= i < |r| ==> !('A' <= r[i] <= 'Z'))
  {
    StripEnds(raw);
    LowerEnds(Strip(raw));
  }

  /** The topology `main()` chooses; anything but "window" or "server" means both. */
  function ResolveMode(store: Store): (m: Mode)
    ensures m == WindowOnly <==> NormalizeMode(Get(store, "Runtime", "mode", "both")) == "window"
    ensures m == ServerOnly <==> NormalizeMode(Get(store, "Runtime", "mode", "both")) == "server"
  {
    ModeOf(NormalizeMode(Get(store, "Runtime", "mode", "both")))
  }

  /** The branch `main()` takes on a normalised mode word. */
  function ModeOf(word: string): (m: Mode)
    ensures m == WindowOnly <==> word == "window"
    ensures m == ServerOnly <==> word == "server"
  {
    if word == "window" then WindowOnly else if word == "server" then ServerOnly else Both
  }

  /** A lower-case word with no padding is its own normal form. */
  lemma NormalizedWord(w: string)
    requires |w| > 0 && !IsSpace(w[0]) && !IsSpace(w[|w| - 1])
    requires forall i :: 0 <= i < |w| ==> !('A' <= w[i] <= 'Z')
    ensures NormalizeMode(w) == w
  {
    StripUnpadded(w);
    LowerOfUncased(w);
  }

  lemma NormalizeBoth()
    ensures NormalizeMode("both") == "both"
  {
    NormalizedWord("both");
  }

  lemma NormalizeServer()
    ensures NormalizeMode("server") == "server"
  {
    NormalizedWord("server");
  }

  lemma FalseWord()
    ensures ParseBool("false") == Some(false)
  {
    LowerOfUncased("false");
  }

  /** An absent mode is the default "both". */
  lemma ModeDefaultsToBoth(store: Store)
    requires Lookup(store, "Runtime", "mode").None?
    ensures ResolveMode(store) == Both
  {
    NormalizeBoth();
  }

  /** A mode word in any letter case, padded with any whitespace, is recognised. */
  lemma ModeIgnoresCaseAndPadding(store: Store, before: string, word: string, after: string)
    requires AllSpace(before) && AllSpace(after)
    requires Lower(word) == "window" || Lower(word) == "server"
    requires Lookup(store, "Runtime", "mode") == Some(before + word + after)
    ensures ResolveMode(store) == (if Lower(word) == "window" then WindowOnly else ServerOnly)
  {
    var low := Lower(word);
    assert low[0] != ' ' && low[|low| - 1] != ' ';
    LowerKeepsSpace(word[0]);
    LowerKeepsSpace(word[|word| - 1]);
    StripPadded(before, word, after);
  }

  // ---------------------------------------------------------------- main()

  /** Create the window, or report the exception its constructor raised. */
  function ShellActions(store: Store): (r: seq<Action>)
    ensures Shells(r) == (if Open(store).Success? then 1 else 0) && ServerUnits(r) == 0
    ensures Open(store).Success? ==> r == [OpenShell(Open(store).value.0, Open(store).value.1)]
  {
    CountsTwo(ReportFailure, WaitForEnter);
    match Open(store)
    case Success((shell, effects)) =>
      CountsOne(OpenShell(shell, effects));
      [OpenShell(shell, effects)]
    case Failure(_) => [ReportFailure, WaitForEnter]
  }

  /** `run_flask()` in this thread; an exception from its reads is reported. */
  function ServeInline(store: Store): (r: seq<Action>)
    ensures Shells(r) == 0
    ensures ServerUnits(r) == (if ResolveServer(store).Success? then 1 else 0)
    ensures ResolveServer(store).Success? ==> r == [RunServer(ResolveServer(store).value)]
    ensures ResolveServer(store).Failure? ==> r == [ReportFailure, WaitForEnter]
  {
    CountsTwo(ReportFailure, WaitForEnter);
    match ResolveServer(store)
    case Success(settings) =>
      CountsOne(RunServer(settings));
      [RunServer(settings)]
    case Failure(_) => [ReportFailure, WaitForEnter]
  }

  /**
   * The `Popen(..., creationflags=subprocess.CREATE_NEW_CONSOLE)` call. The
   * constant exists on Windows only; elsewhere reading it raises
   * `AttributeError` before any process starts, and `main()` reports it.
   */
  function Detach(platform: Platform): (r: seq<Action>)
    ensures Shells(r) == 0
    ensures ServerUnits(r) == (if platform == Windows then 1 else 0)
    ensures platform != Windows ==> r == [ReportFailure, WaitForEnter]
  {
    CountsTwo(ReportFailure, WaitForEnter);
    CountsOne(SpawnServerProcess);
    if platform == Windows then [SpawnServerProcess] else [ReportFailure, WaitForEnter]
  }

  /** `server_console` asks for a detached console where there is none: the topology ends in a report. */
  predicate ConsoleUnavailable(console: bool, platform: Platform) {
    console && platform != Windows
  }

  /** The topology branch of `main()`, once the mode and `server_console` are known. */
  function ModeActions(mode: Mode, console: bool, platform: Platform, store: Store): (r: seq<Action>)
    ensures ServerUnits(r) <= 1 && Shells(r) <= 1
    ensures mode == WindowOnly ==> r == ShellActions(store)
    ensures mode == ServerOnly ==> r == (if console then Detach(platform) else ServeInline(store))
    ensures mode != WindowOnly && ConsoleUnavailable(console, platform) ==>
      r == [ReportFailure, WaitForEnter] && ServerUnits(r) == 0 && Shells(r) == 0
    ensures mode == Both && !ConsoleUnavailable(console, platform) ==>
      && ServerUnits(r) == 1 && |r| > 1
      && r[0] == (if console then SpawnServerProcess else StartServerThread(ResolveServer(store)))
      && r[1..] == ShellActions(store)
  {
    match mode
    case WindowOnly => ShellActions(store)
    case ServerOnly =>
      if console then Detach(platform) else ServeInline(store)
    case Both =>
      if ConsoleUnavailable(console, platform) then Detach(platform)
      else
        var server := if console then SpawnServerProcess else StartServerThread(ResolveServer(store));
        var shell := ShellActions(store);
        CountsOne(server);
        CountsAdd([server], shell);
        assert ([server] + shell)[1..] == shell;
        [server] + shell
  }

  /** `main()`: `configExists` is the `os.path.exists` check, `projectCreated` whether scaffolding raised. */
  function Dispatch(args: Args, configExists: bool, platform: Platform, store: Store, projectCreated: bool): (r: seq<Action>)
    ensures ServerUnits(r) <= 1 && Shells(r) <= 1
    ensures args.newProject ==> |r| > 0 && r[0] == CreateProject && ServerUnits(r) == 0 && Shells(r) == 0
    ensures !args.newProject && !configExists ==> r == [ShowHint, WaitForEnter]
    ensures !args.newProject && configExists && GetBool(store, "Runtime", "server_console", false).Failure? ==>
      r == [ReportFailure, WaitForEnter]
  {
    if args.newProject then
      if projectCreated then
        CountsOne(CreateProject);
        [CreateProject]
      else
        CountsOne(CreateProject);
        CountsTwo(ReportFailure, WaitForEnter);
        CountsAdd([CreateProject], [ReportFailure, WaitForEnter]);
        assert [CreateProject, ReportFailure, WaitForEnter] == [CreateProject] + [ReportFailure, WaitForEnter];
        [CreateProject, ReportFailure, WaitForEnter]
    else if !configExists then
      CountsTwo(ShowHint, WaitForEnter);
      [ShowHint, WaitForEnter]
    else
      match GetBool(store, "Runtime", "server_console", false)
      case Failure(_) =>
        CountsTwo(ReportFailure, WaitForEnter);
        [ReportFailure, WaitForEnter]
      case Success(console) => ModeActions(ResolveMode(store), console, platform, store)
  }

  /** "window" starts the shell and no server at all. */
  lemma WindowModeStartsNoServer(args: Args, platform: Platform, store: Store, projectCreated: bool)
    requires !args.newProject
    requires GetBool(store, "Runtime", "server_console", false).Success?
    requires ResolveMode(store) == WindowOnly
    ensures Dispatch(args, true, platform, store, projectCreated) == ShellActions(store)
    ensures ServerUnits(Dispatch(args, true, platform, store, projectCreated)) == 0
  {
  }

  /**
   * "server" never creates a shell: with `server_console`, a detached spawn on
   * Windows and a reported `AttributeError` elsewhere; without it, the server inline.
   */
  lemma ServerModeStartsNoShell(args: Args, platform: Platform, store: Store, projectCreated: bool)
    requires !args.newProject
    requires GetBool(store, "Runtime", "server_console", false).Success?
    requires ResolveMode(store) == ServerOnly
    ensures var r := Dispatch(args, true, platform, store, projectCreated);
      var console := GetBool(store, "Runtime", "server_console", false).value;
      && Shells(r) == 0
      && (console && platform == Windows ==> r == [SpawnServerProcess])
      && (console && platform != Windows ==> r == [ReportFailure, WaitForEnter] && ServerUnits(r) == 0)
      && (!console ==> r == ServeInline(store))
  {
  }

  /**
   * Any other mode starts exactly one server unit, then exactly one attempt at
   * the shell, unless `server_console` asks for a console off Windows: then the
   * failed spawn is reported and neither the server nor the shell starts.
   */
  lemma BothModeStartsOneServerThenShell(args: Args, platform: Platform, store: Store, projectCreated: bool)
    requires !args.newProject
    requires GetBool(store, "Runtime", "server_console", false).Success?
    requires ResolveMode(store) == Both
    ensures var r := Dispatch(args, true, platform, store, projectCreated);
      var console := GetBool(store, "Runtime", "server_console", false).value;
      && (ConsoleUnavailable(console, platform) ==>
            r == [ReportFailure, WaitForEnter] && ServerUnits(r) == 0 && Shells(r) == 0)
      && (!ConsoleUnavailable(console, platform) ==>
            && ServerUnits(r) == 1
            && |r| > 1
            && r[0] == (if console then SpawnServerProcess else StartServerThread(ResolveServer(store)))
            && r[1..] == ShellActions(store)
            && Shells(r) == (if Open(store).Success? then 1 else 0))
  {
    var r := Dispatch(args, true, platform, store, projectCreated);
    var console := GetBool(store, "Runtime", "server_console", false).value;
    if !ConsoleUnavailable(console, platform) {
      assert r[1..] == ShellActions(store);
    }
  }

  /** The Runtime words of the scenario below: mode "server", `server_console` false. */
  lemma ServerWithoutConsole(store: Store)
    requires Lookup(store, "Runtime", "mode") == Some("server")
    requires Lookup(store, "Runtime", "server_console") == Some("false")
    ensures ResolveMode(store) == ServerOnly
    ensures GetBool(store, "Runtime", "server_console", false) == Success(false)
  {
    NormalizeServer();
    FalseWord();
  }

  /** Mode "server", no detached console, port 5000: the server runs in this thread on port 5000, no shell. */
  lemma ServerScenario(platform: Platform, store: Store)
    requires Lookup(store, "Runtime", "mode") == Some("server")
    requires Lookup(store, "Runtime", "server_console") == Some("false")
    requires Lookup(store, "Server", "port") == Some(IntToString(5000))
    requires Lookup(store, "Server", "host").None? && Lookup(store, "Server", "debug").None?
    ensures Dispatch(Args(false, false), true, platform, store, false) == [RunServer(ServerSettings("127.0.0.1", 5000, true))]
  {
    ServerWithoutConsole(store);
    ServerPortRoundTrip(store, 5000);
    assert ResolveServer(store) == Success(ServerSettings("127.0.0.1", 5000, true));
    assert Dispatch(Args(false, false), true, platform, store, false) == ServeInline(store);
  }

  // ---------------------------------------------------------------- the whole start

  /** Everything the process start depends on that the launcher does not compute itself. */
  datatype Host = Host(
    args: Args,
    configFile: Option<Store>,              // the parsed runtime_conf.ini, None when absent
    platform: Platform,
    probe: ProbeOutcome,
    modulesDir: Option<seq<ModuleFile>>,    // the entries of bin/modules, None when absent
    projectCreated: bool)

  function LoadedStore(h: Host): Store {
    if h.configFile.Some? then h.configFile.value else map[]
  }

  /** `load_modules(app)` at import time, on this host's platform and plugin directory. */
  function PluginLoad(h: Host): LoadReport {
    LoadModules(h.platform, h.modulesDir.Some?, if h.modulesDir.Some? then h.modulesDir.value else [])
  }

  /** The `__main__` guard: serve only when the marker is present, else `main()`. */
  function Guard(h: Host): (r: seq<Action>)
    ensures ServerUnits(r) <= 1 && Shells(r) <= 1
    ensures h.args.onlyServer ==> Shells(r) == 0 && CreateProject !in r
  {
    if h.args.onlyServer then ServeInline(LoadedStore(h))
    else Dispatch(h.args, h.configFile.Some?, h.platform, LoadedStore(h), h.projectCreated)
  }

  /** After the flags are set: load the plugins (a raising plugin crashes the import), then the guard. */
  function AfterFlags(h: Host, flags: Action): (r: seq<Action>)
    requires flags.ApplyRenderingFlags?
    ensures |r| >= 2 && r[0] == flags
    ensures ServerUnits(r) <= 1 && Shells(r) <= 1
    ensures ServerUnits(r) + Shells(r) > 0 ==>
      && |r| > 2 && r[1].PluginsLoaded?
      && ServerUnits(r[2..]) == ServerUnits(r) && Shells(r[2..]) == Shells(r)
    ensures h.args.onlyServer ==> Shells(r) == 0 && CreateProject !in r
    ensures PluginLoad(h).Aborted? ==> r == [flags, Crash]
    ensures PluginLoad(h).Loaded? ==> r == [flags, PluginsLoaded(PluginLoad(h).registered)] + Guard(h)
  {
    match PluginLoad(h)
    case Aborted(_, _) =>
      CountsTwo(flags, Crash);
      [flags, Crash]
    case Loaded(names) =>
      var rest := Guard(h);
      PrependTwo(flags, PluginsLoaded(names), rest);
      [flags, PluginsLoaded(names)] + rest
  }

  /**
   * Import time then the `__main__` guard: read `Window.Potato` (a bad
   * boolean crashes the import), set the GPU flags, load the plugins, then
   * serve only (marker present) or run `main()`.
   */
  function Boot(h: Host): (r: seq<Action>)
    ensures GetBool(LoadedStore(h), "Window", "Potato", true).Failure? <==> r == [Crash]
    ensures GetBool(LoadedStore(h), "Window", "Potato", true).Success? ==>
      |r| >= 2 && r[0] == ApplyRenderingFlags(EnvFlags(Name(Classify(h.platform, h.probe))))
    ensures ServerUnits(r) <= 1 && Shells(r) <= 1
    ensures ServerUnits(r) + Shells(r) > 0 ==>
      && |r| > 2 && r[0].ApplyRenderingFlags? && r[1].PluginsLoaded?
      && ServerUnits(r[2..]) == ServerUnits(r) && Shells(r[2..]) == Shells(r)
    ensures h.args.onlyServer ==> Shells(r) == 0 && CreateProject !in r
  {
    match GetBool(LoadedStore(h), "Window", "Potato", true)
    case Failure(_) =>
      CountsOne(Crash);
      [Crash]
    case Success(_) => AfterFlags(h, ApplyRenderingFlags(EnvFlags(Name(Classify(h.platform, h.probe)))))
  }

  /** The flags applied at start always enable GPU rendering; the software fallback never runs. */
  lemma BootAppliesAcceleratedFlags(h: Host)
    requires GetBool(LoadedStore(h), "Window", "Potato", true).Success?
    ensures Boot(h)[0].ApplyRenderingFlags?
    ensures Boot(h)[0].flags != EnvFlags("unknown")
  {
    ClassifiedFlagsAreAccelerated(h.platform, h.probe);
  }

  /** The plugin load and the guard when the configuration file is missing and no flag is given. */
  lemma HintAfterFlags(h: Host, flags: Action)
    requires flags.ApplyRenderingFlags?
    requires h.configFile.None? && !h.args.newProject && !h.args.onlyServer
    requires PluginLoad(h).Loaded?
    ensures |AfterFlags(h, flags)| == 4 && AfterFlags(h, flags)[2..] == [ShowHint, WaitForEnter]
    ensures ServerUnits(AfterFlags(h, flags)) == 0 && Shells(AfterFlags(h, flags)) == 0
  {
    var names := PluginLoad(h).registered;
    assert Guard(h) == [ShowHint, WaitForEnter];
    PrependTwo(flags, PluginsLoaded(names), [ShowHint, WaitForEnter]);
    CountsTwo(ShowHint, WaitForEnter);
  }

  /** With no configuration file and no flags, nothing is started and the hint is shown. */
  lemma MissingConfigStartsNothing(h: Host)
    requires h.configFile.None? && !h.args.newProject && !h.args.onlyServer
    requires PluginLoad(h).Loaded?
    ensures |Boot(h)| == 4 && Boot(h)[2..] == [ShowHint, WaitForEnter]
    ensures ServerUnits(Boot(h)) == 0 && Shells(Boot(h)) == 0
  {
    assert LoadedStore(h) == map[];
    var flags := ApplyRenderingFlags(EnvFlags(Name(Classify(h.platform, h.probe))));
    assert Boot(h) == AfterFlags(h, flags);
    HintAfterFlags(h, flags);
  }

  /** The `--only-server` marker wins over `--new-project` and over a missing file: serve, nothing else. */
  lemma OnlyServerMarkerWins(h: Host)
    requires h.args.onlyServer
    requires GetBool(LoadedStore(h), "Window", "Potato", true).Success?
    requires PluginLoad(h).Loaded?
    ensures Boot(h)[2..] == ServeInline(LoadedStore(h))
  {
    assert Guard(h) == ServeInline(LoadedStore(h));
  }
}

=== FILE: platform.dfy ===
/** The operating system the launcher runs on. */
module Platforms {
  /** `platform.system() == "Windows"`, or any other system. */
  datatype Platform = Windows | OtherOs
}

=== FILE: plugins.dfy ===
/**
 * Startup plugin loading (`load_modules`) and the `.html` guard of the
 * `/templates/<path>` route.
 */
module Plugins {
  import opened Wrappers
  import opened Text
  import opened Platforms

  /**
   * One directory entry of `bin/modules` and what happens when it is
   * executed: whether `exec_module` raises, whether the module defines
   * `register`, and whether calling `register(app)` raises.
   */
  datatype ModuleFile = ModuleFile(file: string, execRaises: bool, hasRegister: bool, registerRaises: bool)

  /**
   * The entries `glob('*.py')` picks: not hidden, with a `.py` suffix. On
   * Windows the match goes through `os.path.normcase`, which lower-cases the
   * name, so `Plugin.PY` is picked there too; elsewhere the case must match.
   */
  predicate IsCandidate(platform: Platform, f: ModuleFile) {
    EndsWith(if platform == Windows then Lower(f.file) else f.file, ".py") && f.file[0] != '.'
  }

  /** A name long enough to carry the three-character suffix the glob matched. */
  predicate HasSuffixRoom(f: ModuleFile) {
    |f.file| >= 3
  }

  /** `os.path.splitext(os.path.basename(file))[0]` for a globbed file. */
  function ModuleName(f: ModuleFile): string
    requires HasSuffixRoom(f)
  {
    f.file[..|f.file| - 3]
  }

  /**
   * Loading this module raises, and nothing around it catches the exception.
   * `spec_from_file_location` picks its loader by a case-sensitive suffix
   * test, so a file picked without an exact `.py` suffix gets no spec and
   * `module_from_spec` raises at `spec.loader`; otherwise `exec_module` or
   * `register` may raise.
   */
  predicate Fails(f: ModuleFile) {
    !EndsWith(f.file, ".py") || f.execRaises || (f.hasRegister && f.registerRaises)
  }

  function Candidates(platform: Platform, entries: seq<ModuleFile>): (r: seq<ModuleFile>)
    ensures forall i :: 0 <= i < |r| ==> IsCandidate(platform, r[i]) && HasSuffixRoom(r[i])
    ensures forall f :: f in r <==> f in entries && IsCandidate(platform, f)
  {
    if |entries| == 0 then []
    else (if IsCandidate(platform, entries[0]) then [entries[0]] else []) + Candidates(platform, entries[1..])
  }

  /** Number of modules that define `register`. */
  function CountHooks(files: seq<ModuleFile>): nat {
    if |files| == 0 then 0 else (if files[0].hasRegister then 1 else 0) + CountHooks(files[1..])
  }

  /** The names of the modules that define `register`, in order: one per hook counted. */
  function RegisteredNames(files: seq<ModuleFile>): (r: seq<string>)
    requires forall i :: 0 <= i < |files| ==> HasSuffixRoom(files[i])
    ensures |r| == CountHooks(files)
  {
    if |files| == 0 then []
    else (if files[0].hasRegister then [ModuleName(files[0])] else []) + RegisteredNames(files[1..])
  }

  /** Position of the first module that raises, or `|files|` when none does. */
  function FirstFailure(files: seq<ModuleFile>): (k: nat)
    ensures k <= |files|
    ensures forall j :: 0 <= j < k ==> !Fails(files[j])
    ensures k < |files| ==> Fails(files[k])
    decreases |files|
  {
    if |files| == 0 then 0 else if Fails(files[0]) then 0 else 1 + FirstFailure(files[1..])
  }

  /**
   * The loop's outcome: every registered module name in order, or the
   * module whose exception escaped together with those registered before it.
   */
  datatype LoadReport = Loaded(registered: seq<string>) | Aborted(failed: string, registered: seq<string>)

  /** The loop of `load_modules` over the globbed files, in glob order. */
  function LoadAll(files: seq<ModuleFile>): (r: LoadReport)
    requires forall i :: 0 <= i < |files| ==> HasSuffixRoom(files[i])
    ensures r.Loaded? <==> FirstFailure(files) == |files|
    ensures r.Aborted? ==> r.failed == ModuleName(files[FirstFailure(files)])
    ensures r.registered == RegisteredNames(files[..FirstFailure(files)])
    ensures |r.registered| == CountHooks(files[..FirstFailure(files)])
    decreases |files|
  {
    if |files| == 0 then Loaded([])
    else
      var f := files[0];
      if Fails(f) then Aborted(ModuleName(f), [])
      else
        var mine := if f.hasRegister then [ModuleName(f)] else [];
        var rest := LoadAll(files[1..]);
        assert files[..FirstFailure(files)][1..] == files[1..][..FirstFailure(files[1..])];
        match rest
        case Loaded(names) => Loaded(mine + names)
        case Aborted(bad, names) => Aborted(bad, mine + names)
  }

  /** `load_modules`: nothing is loaded when the directory is missing. */
  function LoadModules(platform: Platform, dirExists: bool, entries: seq<ModuleFile>): (r: LoadReport)
    ensures !dirExists ==> r == Loaded([])
    ensures dirExists ==> r == LoadAll(Candidates(platform, entries))
  {
    if dirExists then LoadAll(Candidates(platform, entries)) else Loaded([])
  }

  /** A file the glob picks elsewhere is picked on Windows as well. */
  lemma WindowsPicksAtLeastAsMuch(f: ModuleFile)
    requires IsCandidate(OtherOs, f)
    ensures IsCandidate(Windows, f)
  {
    var n := |f.file|;
    var low := Lower(f.file);
    assert low[n - 3..] == ".py" by {
      assert f.file[n - 3..] == ".py";
      assert f.file[n - 3] == '.' && f.file[n - 2] == 'p' && f.file[n - 1] == 'y';
    }
  }

  /** An upper-case suffix is picked on Windows only. */
  lemma UpperSuffixOnlyOnWindows(f: ModuleFile)
    requires f.file == "Plugin.PY"
    ensures IsCandidate(Windows, f)
    ensures !IsCandidate(OtherOs, f)
  {
    assert Lower(f.file)[6..] == ".py";
    assert f.file[6..] == ".PY";
  }

  /**
   * A picked `Plugin.PY` crashes the load on Windows, however harmless its
   * code; elsewhere it is not picked and the load is empty.
   */
  lemma UpperSuffixCrashesOnWindows(f: ModuleFile)
    requires f.file == "Plugin.PY"
    ensures LoadModules(Windows, true, [f]) == Aborted("Plugin", [])
    ensures LoadModules(OtherOs, true, [f]) == Loaded([])
  {
    UpperSuffixOnlyOnWindows(f);
    assert f.file[6..] == ".PY";
    assert Candidates(Windows, [f]) == [f];
    assert Candidates(OtherOs, [f]) == [];
    assert ModuleName(f) == "Plugin";
  }

  /** One module whose code raises aborts the whole load, whatever follows it. */
  lemma OneFailureAbortsAll(platform: Platform, entries: seq<ModuleFile>, f: ModuleFile)
    requires f in entries && IsCandidate(platform, f) && Fails(f)
    ensures LoadModules(platform, true, entries).Aborted?
  {
    var files := Candidates(platform, entries);
    var i :| 0 <= i < |files| && files[i] == f;
    assert FirstFailure(files) <= i;
  }

  /** When no module raises, the count printed is the number of modules that define `register`. */
  lemma CleanLoadCountsHooks(platform: Platform, entries: seq<ModuleFile>)
    requires forall f :: f in entries && IsCandidate(platform, f) ==> !Fails(f)
    ensures LoadModules(platform, true, entries).Loaded?
    ensures |LoadModules(platform, true, entries).registered| == CountHooks(Candidates(platform, entries))
  {
    var files := Candidates(platform, entries);
    assert forall i :: 0 <= i < |files| ==> files[i] in entries;
    assert files[..|files|] == files;
  }

  // ---------------------------------------------------------------- /templates/<path>

  datatype TemplateReply = Rendered(html: string) | NotFound {
    function Status(): int {
      if Rendered? then 200 else 404
    }
  }

  /**
   * `render_any_template`: 404 for a path without the `.html` suffix, else the
   * rendered page, or 404 when rendering raised (`rendered` is `None`).
   */
  function RenderAnyTemplate(path: string, rendered: Option<string>): (r: TemplateReply)
    ensures r.Rendered? <==> EndsWith(path, ".html") && rendered.Some?
    ensures r.Status() == 404 <==> !EndsWith(path, ".html") || rendered.None?
    ensures r.Rendered? ==> r.html == rendered.value
  {
    if !EndsWith(path, ".html") then NotFound
    else match rendered
      case Some(html) => Rendered(html)
      case None => NotFound
  }

  /** Any path completed with `.html` passes the guard. */
  lemma HtmlSuffixPasses(path: string, html: string)
    ensures RenderAnyTemplate(path + ".html", Some(html)) == Rendered(html)
  {
    assert (path + ".html")[|path|..] == ".html";
  }
}

=== FILE: text.dfy ===
/**
 * The few Python string operations the launcher relies on: `str.lower`,
 * `str.strip`, the `in` substring test, `str.endswith`, `str(int)` and `int(str)`.
 */
module Text {
  import opened Wrappers

  /** Python's `str.isspace` set, by code point (what `strip()` removes). */
  predicate IsSpace(c: char) {
    var n := c as int;
    || n == 0x20 || (0x09 <= n <= 0x0D) || (0x1C <= n <= 0x1F)
    || n == 0x85 || n == 0xA0 || n == 0x1680 || (0x2000 <= n <= 0x200A)
    || n == 0x2028 || n == 0x2029 || n == 0x202F || n == 0x205F || n == 0x3000
  }

  /** Lower-cases the ASCII letters and leaves every other character alone. */
  function LowerChar(c: char): char {
    if 'A' <= c <= 'Z' then (c as int + 32) as char else c
  }

  function Lower(s: string): (r: string)
    ensures |r| == |s|
    ensures forall i :: 0 <= i < |s| ==> r[i] == LowerChar(s[i])
  {
    seq(|s|, i requires 0 <= i < |s| => LowerChar(s[i]))
  }

  /** A string without upper-case ASCII letters is its own lower-case form. */
  lemma LowerOfUncased(s: string)
    requires forall i :: 0 <= i < |s| ==> !('A' <= s[i] <= 'Z')
    ensures Lower(s) == s
  {
  }

  /** Lower-casing a slice is slicing the lower-cased string. */
  lemma LowerSlice(s: string, i: int, j: int)
    requires 0 <= i <= j <= |s|
    ensures Lower(s[i..j]) == Lower(s)[i..j]
  {
  }

  /** Lower-casing distributes over concatenation. */
  lemma LowerConcat(a: string, b: string)
    ensures Lower(a + b) == Lower(a) + Lower(b)
  {
  }

  /** Lower-casing twice is lower-casing once. */
  lemma LowerIdempotent(s: string)
    ensures Lower(Lower(s)) == Lower(s)
  {
  }

  // ---------------------------------------------------------------- strip

  /** `s.lstrip()`: the suffix left after dropping leading whitespace. */
  function TrimStart(s: string): (r: string)
    ensures |r| <= |s| && r == s[|s| - |r|..]
    ensures forall i :: 0 <= i < |s| - |r| ==> IsSpace(s[i])
    ensures |r| > 0 ==> !IsSpace(r[0])
  {
    if |s| > 0 && IsSpace(s[0]) then TrimStart(s[1..]) else s
  }

  /** `s.rstrip()`: the prefix left after dropping trailing whitespace. */
  function TrimEnd(s: string): (r: string)
    ensures |r| <= |s| && r == s[..|r|]
    ensures forall i :: |r| <= i < |s| ==> IsSpace(s[i])
    ensures |r| > 0 ==> !IsSpace(r[|r| - 1])
  {
    if |s| > 0 && IsSpace(s[|s| - 1]) then TrimEnd(s[..|s| - 1]) else s
  }

  /** `s.strip()`. */
  function Strip(s: string): string {
    TrimEnd(TrimStart(s))
  }

  /** `strip()` shortens, and leaves no whitespace at either end. */
  lemma StripEnds(s: string)
    ensures |Strip(s)| <= |s|
    ensures |Strip(s)| > 0 ==> !IsSpace(Strip(s)[0]) && !IsSpace(Strip(s)[|Strip(s)| - 1])
  {
    var t := TrimStart(s);
    var u := TrimEnd(t);
    if |u| > 0 {
      assert u == t[..|u|] && u[0] == t[0];
    }
  }

  /** What `strip()` removed is whitespace, and what is left neither starts nor ends with it. */
  lemma StripIsSlice(s: string) returns (a: nat, b: nat)
    ensures a <= b <= |s| && Strip(s) == s[a..b]
    ensures forall i :: 0 <= i < a ==> IsSpace(s[i])
    ensures forall i :: b <= i < |s| ==> IsSpace(s[i])
  {
    var t := TrimStart(s);
    var u := TrimEnd(t);
    a := |s| - |t|;
    b := a + |u|;
    SliceOfSuffix(s, a, |u|);
    SpaceTailOfSuffix(s, a, |u|);
  }

  /** A prefix of a suffix is a middle slice. */
  lemma SliceOfSuffix(s: string, a: nat, k: nat)
    requires a + k <= |s|
    ensures s[a..][..k] == s[a..a + k]
  {
  }

  /** Whitespace ending the suffix `s[a..]` from position `k` on ends `s` from `a + k` on. */
  lemma SpaceTailOfSuffix(s: string, a: nat, k: nat)
    requires a <= |s| && k <= |s| - a
    requires forall j :: k <= j < |s| - a ==> IsSpace(s[a..][j])
    ensures forall i :: a + k <= i < |s| ==> IsSpace(s[i])
  {
    forall i | a + k <= i < |s|
      ensures IsSpace(s[i])
    {
      assert s[i] == s[a..][i - a];
    }
  }

  /** A string that neither starts nor ends with whitespace is its own `strip()`. */
  lemma StripUnpadded(s: string)
    requires |s| > 0 ==> !IsSpace(s[0]) && !IsSpace(s[|s| - 1])
    ensures Strip(s) == s
  {
  }

  predicate AllSpace(s: string) {
    forall i :: 0 <= i < |s| ==> IsSpace(s[i])
  }

  lemma {:induction false} TrimStartPadding(pad: string, t: string)
    requires AllSpace(pad) && (|t| > 0 ==> !IsSpace(t[0]))
    ensures TrimStart(pad + t) == t
    decreases |pad|
  {
    if |pad| > 0 {
      assert (pad + t)[1..] == pad[1..] + t;
      TrimStartPadding(pad[1..], t);
    } else {
      assert pad + t == t;
    }
  }

  lemma {:induction false} TrimEndPadding(t: string, pad: string)
    requires AllSpace(pad) && (|t| > 0 ==> !IsSpace(t[|t| - 1]))
    ensures TrimEnd(t + pad) == t
    decreases |pad|
  {
    if |pad| > 0 {
      assert (t + pad)[..|t + pad| - 1] == t + pad[..|pad| - 1];
      TrimEndPadding(t, pad[..|pad| - 1]);
    } else {
      assert t + pad == t;
    }
  }

  /** `strip()` removes exactly the whitespace padding around a word. */
  lemma StripPadded(before: string, word: string, after: string)
    requires AllSpace(before) && AllSpace(after)
    requires |word| > 0 && !IsSpace(word[0]) && !IsSpace(word[|word| - 1])
    ensures Strip(before + word + after) == word
  {
    assert before + word + after == before + (word + after);
    TrimStartPadding(before, word + after);
    TrimEndPadding(word, after);
  }

  // ---------------------------------------------------------------- substring

  /** The `k in s` test of Python, written as a scan. */
  function Contains(s: string, k: string): bool
    decreases |s|
  {
    if |k| > |s| then false
    else if s[..|k|] == k then true
    else if |s| == 0 then false
    else Contains(s[1..], k)
  }

  /** `k` occurs in `s` starting at position `i`. */
  predicate OccursAt(s: string, k: string, i: int) {
    0 <= i <= |s| - |k| && s[i..i + |k|] == k
  }

  /** `k` occurs in `s` at some position. */
  ghost predicate Occurs(s: string, k: string) {
    exists i :: OccursAt(s, k, i)
  }

  lemma {:induction false} ContainsIffOccurs(s: string, k: string)
    ensures Contains(s, k) <==> Occurs(s, k)
    decreases |s|
  {
    if |k| > |s| {
    } else if s[..|k|] == k {
      assert OccursAt(s, k, 0);
    } else if |s| == 0 {
    } else {
      ContainsIffOccurs(s[1..], k);
      if Occurs(s, k) {
        var i :| OccursAt(s, k, i);
        assert i != 0;
        assert s[1..][i - 1..i - 1 + |k|] == s[i..i + |k|];
        assert OccursAt(s[1..], k, i - 1);
      }
      if Occurs(s[1..], k) {
        var i :| OccursAt(s[1..], k, i);
        assert s[i + 1..i + 1 + |k|] == s[1..][i..i + |k|];
        assert OccursAt(s, k, i + 1);
      }
    }
  }

  predicate NoSpace(k: string) {
    forall i :: 0 <= i < |k| ==> !IsSpace(k[i])
  }

  /** An occurrence inside a slice is an occurrence in the whole string. */
  lemma OccursInWhole(t: string, a: nat, b: nat, k: string)
    requires a <= b <= |t| && Occurs(t[a..b], k)
    ensures Occurs(t, k)
  {
    var i :| OccursAt(t[a..b], k, i);
    assert a + i + |k| <= b;
    assert forall j :: 0 <= j < |k| ==> t[a + i + j] == k[j];
    assert t[a + i..a + i + |k|] == t[a..b][i..i + |k|];
    assert OccursAt(t, k, a + i);
  }

  /** An occurrence that lies between `a` and `b` is an occurrence in `t[a..b]`. */
  lemma OccursInSlice(t: string, a: nat, b: nat, k: string, i: int)
    requires OccursAt(t, k, i) && a <= i && i + |k| <= b <= |t|
    ensures Occurs(t[a..b], k)
  {
    var u := t[a..b];
    assert forall j :: 0 <= j < |k| ==> u[i - a + j] == t[i + j] == k[j];
    assert u[i - a..i - a + |k|] == k;
    assert OccursAt(u, k, i - a);
  }

  /** Lower-casing never turns a character into whitespace or whitespace into something else. */
  lemma LowerKeepsSpace(c: char)
    ensures IsSpace(LowerChar(c)) <==> IsSpace(c)
  {
  }

  /** Lower-casing leaves no upper-case ASCII letter and keeps whitespace at both ends where it was. */
  lemma LowerEnds(s: string)
    ensures forall i :: 0 <= i < |s| ==> !('A' <= Lower(s)[i] <= 'Z')
    ensures |s| > 0 ==> (IsSpace(Lower(s)[0]) <==> IsSpace(s[0]))
    ensures |s| > 0 ==> (IsSpace(Lower(s)[|s| - 1]) <==> IsSpace(s[|s| - 1]))
  {
    if |s| > 0 {
      LowerKeepsSpace(s[0]);
      LowerKeepsSpace(s[|s| - 1]);
    }
  }

  /** An occurrence of a keyword without whitespace cannot touch the padding `strip()` removes. */
  lemma OccurrenceAvoidsPadding(s: string, k: string, a: nat, b: nat, i: int)
    requires |k| > 0 && NoSpace(k) && a <= b <= |s|
    requires forall x :: 0 <= x < a ==> IsSpace(s[x])
    requires forall x :: b <= x < |s| ==> IsSpace(s[x])
    requires OccursAt(Lower(s), k, i)
    ensures a <= i && i + |k| <= b
  {
    var j := i + |k| - 1;
    assert Lower(s)[i..i + |k|] == k;
    assert Lower(s)[i] == k[0];
    assert Lower(s)[j] == k[|k| - 1];
    LowerKeepsSpace(s[i]);
    LowerKeepsSpace(s[j]);
  }

  /**
   * A keyword without whitespace is found in the lower-cased text exactly
   * when it is found in the lower-cased stripped text: `strip()` cannot
   * change the outcome of a keyword search.
   */
  lemma OccursThroughStrip(s: string, k: string)
    requires |k| > 0 && NoSpace(k)
    ensures Occurs(Lower(Strip(s)), k) <==> Occurs(Lower(s), k)
  {
    var a, b := StripIsSlice(s);
    LowerSlice(s, a, b);
    var low := Lower(s);
    assert Lower(Strip(s)) == low[a..b];
    if Occurs(low[a..b], k) {
      OccursInWhole(low, a, b, k);
    }
    if Occurs(low, k) {
      var i :| OccursAt(low, k, i);
      OccurrenceAvoidsPadding(s, k, a, b, i);
      OccursInSlice(low, a, b, k, i);
    }
  }

  /** `suffix` ends `s` (`s.endswith(suffix)`). */
  predicate EndsWith(s: string, suffix: string) {
    |suffix| <= |s| && s[|s| - |suffix|..] == suffix
  }

  // ---------------------------------------------------------------- integers

  predicate IsDigit(c: char) {
    '0' <= c <= '9'
  }

  function DigitChar(d: nat): (c: char)
    requires d < 10
    ensures IsDigit(c)
  {
    ('0' as int + d) as char
  }

  function DigitValue(c: char): nat
    requires IsDigit(c)
  {
    c as int - '0' as int
  }

  predicate AllDigits(s: string) {
    forall i :: 0 <= i < |s| ==> IsDigit(s[i])
  }

  /** The number a string of decimal digits denotes, most significant first. */
  function DigitsValue(s: string): nat
    requires AllDigits(s)
  {
    if |s| == 0 then 0 else DigitsValue(s[..|s| - 1]) * 10 + DigitValue(s[|s| - 1])
  }

  /** `str(n)` for a natural number: shortest decimal form. */
  function NatToString(n: nat): (r: string)
    ensures |r| > 0 && AllDigits(r)
  {
    if n < 10 then [DigitChar(n)] else NatToString(n / 10) + [DigitChar(n % 10)]
  }

  /** `str(n)` for any integer. */
  function IntToString(n: int): (r: string) {
    if n < 0 then "-" + NatToString(-n) else NatToString(n)
  }

  /**
   * The information separators U+001C..U+001F. `str.isspace` counts them as
   * whitespace, but `int()` does not strip them.
   */
  predicate IsSeparator(c: char) {
    0x1C <= c as int <= 0x1F
  }

  predicate HasSeparator(s: string) {
    exists i :: 0 <= i < |s| && IsSeparator(s[i])
  }

  /** An optional sign followed by at least one decimal digit. */
  predicate IntLiteral(t: string) {
    if |t| > 0 && (t[0] == '-' || t[0] == '+') then |t| > 1 && AllDigits(t[1..])
    else |t| > 0 && AllDigits(t)
  }

  /**
   * `int(s)` on a string. The surrounding whitespace is stripped, then comes an
   * optional sign and at least one decimal digit. `None` is the `ValueError`
   * Python raises. `int()` strips the same whitespace as `strip()` except the
   * separators, so a separator makes it fail wherever it stands: at either end
   * it is not stripped, and inside the number it is not a digit.
   */
  function ParseInt(s: string): (r: Option<int>)
    ensures r.Some? <==> !HasSeparator(s) && IntLiteral(Strip(s))
    ensures r.Some? ==> r.value == LiteralValue(Strip(s))
  {
    var t := Strip(s);
    if HasSeparator(s) || !IntLiteral(t) then None else Some(LiteralValue(t))
  }

  /** The number a literal denotes: its digits, negated after a leading minus. */
  function LiteralValue(t: string): (v: int)
    requires IntLiteral(t)
    ensures v < 0 ==> t[0] == '-'
    ensures t[0] == '-' ==> v + DigitsValue(t[1..]) == 0
    ensures t[0] == '+' ==> v == DigitsValue(t[1..])
    ensures IsDigit(t[0]) ==> v == DigitsValue(t)
  {
    if t[0] == '-' then 0 - DigitsValue(t[1..])
    else if t[0] == '+' then DigitsValue(t[1..])
    else DigitsValue(t)
  }

  lemma {:induction false} DigitsValueOfNatToString(n: nat)
    ensures DigitsValue(NatToString(n)) == n
  {
    if n >= 10 {
      var s := NatToString(n / 10) + [DigitChar(n % 10)];
      assert s[..|s| - 1] == NatToString(n / 10);
      DigitsValueOfNatToString(n / 10);
    }
  }

  /** `str(n)` is a sign-and-digits literal with nothing around it for `int()` to reject or strip. */
  lemma IntToStringIsLiteral(n: int)
    ensures var s := IntToString(n);
      && !HasSeparator(s) && Strip(s) == s && IntLiteral(s)
      && (n < 0 ==> s[0] == '-' && s[1..] == NatToString(-n))
      && (n >= 0 ==> s == NatToString(n))
  {
    var s := IntToString(n);
    if n < 0 {
      var ds := NatToString(-n);
      assert s == "-" + ds && s[0] == '-' && s[1..] == ds;
      assert forall i :: 1 <= i < |s| ==> s[i] == ds[i - 1];
      assert !IsSpace(s[0]) && !IsSpace(s[|s| - 1]);
    } else {
      assert IsDigit(s[0]) && IsDigit(s[|s| - 1]);
    }
    StripUnpadded(s);
  }

  /** `int(str(n)) == n` for a negative `n`: the minus and then the digits of `-n`. */
  lemma ParseIntOfNegative(n: int)
    requires n < 0
    ensures ParseInt(IntToString(n)) == Some(n)
  {
    IntToStringIsLiteral(n);
    var s := IntToString(n);
    assert ParseInt(s) == Some(LiteralValue(s));
    var ds := s[1..];
    assert s[0] == '-' && ds == NatToString(-n);
    DigitsValueOfNatToString(-n);
    assert LiteralValue(s) + DigitsValue(ds) == 0;
  }

  /** `int(str(n)) == n`: parsing undoes printing. */
  lemma ParseIntOfIntToString(n: int)
    ensures ParseInt(IntToString(n)) == Some(n)
  {
    if n < 0 {
      ParseIntOfNegative(n);
    } else {
      IntToStringIsLiteral(n);
      DigitsValueOfNatToString(n);
      ParseIntOfDigits(IntToString(n));
    }
  }

  /** Whitespace padding other than the separators does not change what `int()` gives. */
  lemma ParseIntIgnoresPadding(before: string, core: string, after: string)
    requires AllSpace(before) && AllSpace(after) && !HasSeparator(before) && !HasSeparator(after)
    requires |core| > 0 && !IsSpace(core[0]) && !IsSpace(core[|core| - 1])
    ensures ParseInt(before + core + after) == ParseInt(core)
  {
    var whole := before + core + after;
    StripPadded(before, core, after);
    StripUnpadded(core);
    if HasSeparator(core) {
      var i :| 0 <= i < |core| && IsSeparator(core[i]);
      assert whole[|before| + i] == core[i];
    }
    if HasSeparator(whole) {
      var i :| 0 <= i < |whole| && IsSeparator(whole[i]);
      assert IsSeparator(core[i - |before|]);
    }
  }

  /** A leading zero does not change the value of a digit string. */
  lemma {:induction false} DigitsValueLeadingZero(ds: string)
    requires AllDigits(ds)
    ensures AllDigits("0" + ds) && DigitsValue("0" + ds) == DigitsValue(ds)
    decreases |ds|
  {
    var z := "0" + ds;
    assert forall i :: 1 <= i < |z| ==> z[i] == ds[i - 1];
    if |ds| > 0 {
      var init := ds[..|ds| - 1];
      assert z[..|z| - 1] == "0" + init;
      DigitsValueLeadingZero(init);
    }
  }

  /** A separator-free string of decimal digits is read as its value. */
  lemma ParseIntOfDigits(ds: string)
    requires |ds| > 0 && AllDigits(ds) && !HasSeparator(ds)
    ensures ParseInt(ds) == Some(DigitsValue(ds))
  {
    assert IsDigit(ds[0]) && IsDigit(ds[|ds| - 1]);
    StripUnpadded(ds);
    assert IntLiteral(ds);
  }

  /** A `+` in front of a digit string makes a literal with nothing to strip. */
  lemma PlusLiteral(ds: string)
    requires |ds| > 0 && AllDigits(ds) && !HasSeparator(ds)
    ensures var p := "+" + ds;
      Strip(p) == p && !HasSeparator(p) && IntLiteral(p) && p[1..] == ds
  {
    var p := "+" + ds;
    assert p[0] == '+' && p[1..] == ds;
    assert !IsSpace(p[0]) && IsDigit(p[|p| - 1]);
    StripUnpadded(p);
    assert forall i :: 1 <= i < |p| ==> p[i] == ds[i - 1];
  }

  /** `int()` ignores a leading `+`. */
  lemma ParseIntPlusSign(ds: string)
    requires |ds| > 0 && AllDigits(ds) && !HasSeparator(ds)
    ensures ParseInt("+" + ds) == ParseInt(ds)
  {
    ParseIntOfDigits(ds);
    PlusLiteral(ds);
  }

  /** `int()` ignores a leading zero. */
  lemma ParseIntLeadingZero(ds: string)
    requires |ds| > 0 && AllDigits(ds) && !HasSeparator(ds)
    ensures ParseInt("0" + ds) == ParseInt(ds)
  {
    ParseIntOfDigits(ds);
    var z := "0" + ds;
    DigitsValueLeadingZero(ds);
    assert !HasSeparator(z) by {
      assert forall i :: 1 <= i < |z| ==> z[i] == ds[i - 1];
    }
    ParseIntOfDigits(z);
  }

}

=== FILE: window.dfy ===
/**
 * The desktop shell (`MainWindow`) as an event-driven state machine. Qt's
 * timers become `Schedule` effects and pending tasks; the environment later
 * delivers `TimerFired` for a pending task. Page-load signals only reach the
 * shell once `load_main_url` has connected its handlers.
 */
module Window {
  import opened Wrappers
  import opened Text
  import opened Config

  /** `Qt.Key_Escape`. */
  const EscapeKey := 16777216
  /** Delay before the real content replaces the placeholder. */
  const MainLoadDelayMs := 2000
  /** Delay before a failed load is retried. */
  const RetryDelayMs := 3000

  datatype Task = LoadMainUrl | RetryLoad

  datatype Geometry = Geometry(x: int, y: int, width: int, height: int)

  /** What the shell asks Qt to do. */
  datatype Effect =
    | EnterFullScreen            // showFullScreen()
    | LeaveFullScreen            // showNormal()
    | SetGeometry(geometry: Geometry)
    | ShowPlaceholder            // setHtml(get_base_html())
    | Schedule(delayMs: nat, task: Task)  // QTimer.singleShot
    | Navigate(url: string)      // web_view.setUrl
    | LogProgress(percent: int)

  /** What Qt delivers to the shell. */
  datatype Event =
    | KeyPress(key: int)
    | TimerFired(task: Task)
    | LoadStarted
    | LoadProgress(percent: int)
    | LoadFinished(success: bool)

  /**
   * The window. `listeners` counts how many times the load handlers were
   * connected; `pending` holds the one-shot timers not yet fired.
   */
  datatype Shell = Shell(title: string, isFullscreen: bool, url: string,
                         listeners: nat, pending: multiset<Task>)

  /** The main-URL timer fires once, and the handlers are connected by it. */
  ghost predicate Inv(s: Shell) {
    s.listeners + s.pending[LoadMainUrl] == 1
  }

  /** The content URL when `Window.url` is unset, built from the raw Server host and port strings. */
  function DefaultUrl(store: Store): (r: string)
    ensures r == "http://" + Get(store, "Server", "host", "127.0.0.1") + ":" + Get(store, "Server", "port", "5000") + "/"
    ensures !("Server" in store) ==> r == "http://127.0.0.1:5000/"
  {
    "http://" + Get(store, "Server", "host", "127.0.0.1") + ":" + Get(store, "Server", "port", "5000") + "/"
  }

  /** Option `key` of `[Window]` is absent or holds text `int()` accepts. */
  predicate Readable(store: Store, key: string) {
    Lookup(store, "Window", key).None? || ParseInt(Lookup(store, "Window", key).value).Some?
  }

  /** `v` is what `int(w.get(key, fallback))` gives. */
  predicate Reads(store: Store, key: string, fallback: int, v: int) {
    match Lookup(store, "Window", key)
    case None => v == fallback
    case Some(text) => ParseInt(text) == Some(v)
  }

  /** `int(w.get(...))` for the four geometry options, read in the order x, y, width, height. */
  function ReadGeometry(store: Store): (r: Result<Geometry, ConfigError>)
    ensures r.Success? <==>
      Readable(store, "x") && Readable(store, "y") && Readable(store, "width") && Readable(store, "height")
    ensures r.Success? ==>
      && Reads(store, "x", 100, r.value.x) && Reads(store, "y", 100, r.value.y)
      && Reads(store, "width", 1200, r.value.width) && Reads(store, "height", 800, r.value.height)
    ensures r.Failure? ==> r.error.NotInteger? && r.error.section == "Window"
  {
    match GetInt(store, "Window", "x", 100)
    case Failure(e) => Failure(e)
    case Success(x) =>
      match GetInt(store, "Window", "y", 100)
      case Failure(e) => Failure(e)
      case Success(y) =>
        match GetInt(store, "Window", "width", 1200)
        case Failure(e) => Failure(e)
        case Success(width) =>
          match GetInt(store, "Window", "height", 800)
          case Failure(e) => Failure(e)
          case Success(height) => Success(Geometry(x, y, width, height))
  }

  /**
   * `MainWindow.__init__`: fails like `config['Window']` and the typed reads do;
   * otherwise shows fullscreen or sized, shows the placeholder and arms the
   * 2000 ms main-URL timer.
   */
  function Open(store: Store): (r: Result<(Shell, seq<Effect>), ConfigError>)
    ensures "Window" !in store ==> r == Failure(MissingSection("Window"))
    ensures r.Success? <==>
      && "Window" in store
      && GetBool(store, "Window", "fullscreen", false).Success?
      && (!GetBool(store, "Window", "fullscreen", false).value ==> ReadGeometry(store).Success?)
    ensures r.Success? ==>
      var (s, effects) := r.value;
      && s.isFullscreen == GetBool(store, "Window", "fullscreen", false).value
      && s.url == Get(store, "Window", "url", DefaultUrl(store))
      && s.title == Get(store, "Window", "title", "NovelForge")
      && Inv(s) && s.listeners == 0 && s.pending == multiset{LoadMainUrl}
      && |effects| == 3
      && effects[0] == (if s.isFullscreen then EnterFullScreen else SetGeometry(ReadGeometry(store).value))
      && effects[1..] == [ShowPlaceholder, Schedule(MainLoadDelayMs, LoadMainUrl)]
  {
    if "Window" !in store then Failure(MissingSection("Window"))
    else
      var title := Get(store, "Window", "title", "NovelForge");
      match GetBool(store, "Window", "fullscreen", false)
      case Failure(e) => Failure(e)
      case Success(fullscreen) =>
        var shown: Result<Effect, ConfigError> :=
          if fullscreen then Success(EnterFullScreen)
          else match ReadGeometry(store)
            case Failure(e) => Failure(e)
            case Success(g) => Success(SetGeometry(g));
        match shown
        case Failure(e) => Failure(e)
        case Success(first) =>
          var url := Get(store, "Window", "url", DefaultUrl(store));
          Success((Shell(title, fullscreen, url, 0, multiset{LoadMainUrl}),
                   [first, ShowPlaceholder, Schedule(MainLoadDelayMs, LoadMainUrl)]))
  }

  /** `n` copies of an effect: one per connected handler. */
  function Repeat(e: Effect, n: nat): (r: seq<Effect>)
    ensures |r| == n && forall i :: 0 <= i < n ==> r[i] == e
  {
    if n == 0 then [] else Repeat(e, n - 1) + [e]
  }

  /** `n` copies of a task. */
  function Copies(t: Task, n: nat): (r: multiset<Task>)
    ensures r[t] == n && forall u :: u != t ==> r[u] == 0
  {
    if n == 0 then multiset{} else Copies(t, n - 1) + multiset{t}
  }

  /**
   * One event: `keyPressEvent`, a timer firing (`load_main_url` or
   * `retry_load`), or one of the load signals.
   */
  function Step(s: Shell, e: Event): (r: (Shell, seq<Effect>))
    ensures r.0.url == s.url && r.0.title == s.title
    ensures r.0.isFullscreen == (s.isFullscreen != (e == KeyPress(EscapeKey)))
    ensures Inv(s) ==> Inv(r.0)
    ensures e.KeyPress? ==>
      r.1 == (if e.key != EscapeKey then [] else if s.isFullscreen then [LeaveFullScreen] else [EnterFullScreen])
    ensures e.LoadProgress? && 0 <= e.percent <= 100 && s.listeners == 1 ==>
      (r.1 == [LogProgress(e.percent)] <==> e.percent in {0, 25, 50, 75, 100})
    ensures e.LoadFinished? ==> r.1 == (if e.success then [] else Repeat(Schedule(RetryDelayMs, RetryLoad), s.listeners))
    ensures e.TimerFired? && e.task !in s.pending ==> r == (s, [])
    ensures e == TimerFired(LoadMainUrl) && LoadMainUrl in s.pending ==>
      r == (s.(listeners := s.listeners + 1, pending := s.pending - multiset{LoadMainUrl}), [Navigate(s.url)])
  {
    match e
    case KeyPress(key) =>
      if key != EscapeKey then (s, [])
      else if s.isFullscreen then (s.(isFullscreen := false), [LeaveFullScreen])
      else (s.(isFullscreen := true), [EnterFullScreen])
    case TimerFired(task) =>
      if task !in s.pending then (s, [])
      else
        var rest := s.pending - multiset{task};
        (match task
         case LoadMainUrl => (s.(listeners := s.listeners + 1, pending := rest), [Navigate(s.url)])
         case RetryLoad => (s.(pending := rest), [Navigate(s.url)]))
    case LoadStarted => (s, [])
    case LoadProgress(percent) =>
      (s, if percent % 25 == 0 then Repeat(LogProgress(percent), s.listeners) else [])
    case LoadFinished(success) =>
      if success then (s, [])
      else (s.(pending := s.pending + Copies(RetryLoad, s.listeners)),
            Repeat(Schedule(RetryDelayMs, RetryLoad), s.listeners))
  }

  /** Feeds events through a transition one at a time, collecting the effects in order. */
  function Fold(step: (Shell, Event) -> (Shell, seq<Effect>), s: Shell, events: seq<Event>): (Shell, seq<Effect>)
    decreases |events|
  {
    if |events| == 0 then (s, [])
    else
      var first := step(s, events[0]);
      var rest := Fold(step, first.0, events[1..]);
      (rest.0, first.1 + rest.1)
  }

  /** A sequence of events, with the effects they ask for in order. */
  function Run(s: Shell, events: seq<Event>): (Shell, seq<Effect>) {
    Fold(Step, s, events)
  }

  /** Folding two lists one after the other is folding their concatenation. */
  lemma {:induction false} FoldAppend(step: (Shell, Event) -> (Shell, seq<Effect>), s: Shell, a: seq<Event>, b: seq<Event>)
    ensures var mid := Fold(step, s, a);
      Fold(step, s, a + b) == (Fold(step, mid.0, b).0, mid.1 + Fold(step, mid.0, b).1)
    decreases |a|
  {
    if |a| > 0 {
      var first := step(s, a[0]);
      assert (a + b)[0] == a[0] && (a + b)[1..] == a[1..] + b;
      FoldAppend(step, first.0, a[1..], b);
      var mid := Fold(step, first.0, a[1..]);
      var last := Fold(step, mid.0, b);
      assert first.1 + (mid.1 + last.1) == (first.1 + mid.1) + last.1;
    } else {
      assert a + b == b;
      assert [] + Fold(step, s, b).1 == Fold(step, s, b).1;
    }
  }

  /** Folding a two-event list is two steps. */
  lemma FoldTwo(step: (Shell, Event) -> (Shell, seq<Effect>), s: Shell, e1: Event, e2: Event)
    ensures var first := step(s, e1);
      var second := step(first.0, e2);
      Fold(step, s, [e1, e2]) == (second.0, first.1 + second.1)
  {
    var first := step(s, e1);
    assert [e1, e2][1..] == [e2] && [e2][1..] == [];
    assert Fold(step, first.0, [e2]) == (step(first.0, e2).0, step(first.0, e2).1 + []);
    assert step(first.0, e2).1 + [] == step(first.0, e2).1;
  }

  function EscapePresses(events: seq<Event>): nat
    decreases |events|
  {
    if |events| == 0 then 0
    else (if events[0] == KeyPress(EscapeKey) then 1 else 0) + EscapePresses(events[1..])
  }

  // ---------------------------------------------------------------- properties

  /** Two Escape presses give back the state they started from. */
  lemma EscapeTwiceRestores(s: Shell)
    ensures Run(s, [KeyPress(EscapeKey), KeyPress(EscapeKey)]).0 == s
    ensures Run(s, [KeyPress(EscapeKey), KeyPress(EscapeKey)]).1
         == (if s.isFullscreen then [LeaveFullScreen, EnterFullScreen] else [EnterFullScreen, LeaveFullScreen])
  {
    FoldTwo(Step, s, KeyPress(EscapeKey), KeyPress(EscapeKey));
    assert Step(Step(s, KeyPress(EscapeKey)).0, KeyPress(EscapeKey)).0 == s;
  }

  /** After any events the window is fullscreen iff it started so and saw an even number of Escapes. */
  lemma {:induction false} FullscreenParity(s: Shell, events: seq<Event>)
    ensures Run(s, events).0.isFullscreen == (s.isFullscreen != (EscapePresses(events) % 2 == 1))
    decreases |events|
  {
    if |events| > 0 {
      var s1 := Step(s, events[0]).0;
      FullscreenParity(s1, events[1..]);
      assert Run(s, events).0 == Run(s1, events[1..]).0;
      var here := if events[0] == KeyPress(EscapeKey) then 1 else 0;
      assert EscapePresses(events) == here + EscapePresses(events[1..]);
      assert s1.isFullscreen == (s.isFullscreen != (here == 1));
      ParityOfSum(here, EscapePresses(events[1..]));
    }
  }

  lemma ParityOfSum(here: nat, rest: nat)
    requires here <= 1
    ensures ((here + rest) % 2 == 1) == ((here == 1) != (rest % 2 == 1))
  {
  }

  /** Nothing ever changes the URL or title, and the timer invariant survives every run. */
  lemma {:induction false} RunKeepsUrl(s: Shell, events: seq<Event>)
    ensures Run(s, events).0.url == s.url && Run(s, events).0.title == s.title
    ensures Inv(s) ==> Inv(Run(s, events).0)
    decreases |events|
  {
    if |events| > 0 {
      RunKeepsUrl(Step(s, events[0]).0, events[1..]);
    }
  }

  /** Once the content is being loaded, a failed load schedules exactly one 3000 ms retry. */
  lemma FailureSchedulesOneRetry(s: Shell)
    requires Inv(s) && s.listeners == 1
    ensures Step(s, LoadFinished(false))
         == (s.(pending := s.pending + multiset{RetryLoad}), [Schedule(RetryDelayMs, RetryLoad)])
  {
    var r := Step(s, LoadFinished(false));
    assert Copies(RetryLoad, 1) == multiset{RetryLoad};
    assert r.0 == s.(pending := s.pending + Copies(RetryLoad, 1));
    assert Repeat(Schedule(RetryDelayMs, RetryLoad), 1) == [Schedule(RetryDelayMs, RetryLoad)];
  }

  /** A successful load schedules nothing and changes nothing. */
  lemma SuccessSchedulesNothing(s: Shell)
    ensures Step(s, LoadFinished(true)) == (s, [])
  {
  }

  /** A retry navigates to the same URL the shell was opened with, and consumes its timer. */
  lemma RetryNavigatesToSameUrl(s: Shell)
    requires RetryLoad in s.pending
    ensures Step(s, TimerFired(RetryLoad)) == (s.(pending := s.pending - multiset{RetryLoad}), [Navigate(s.url)])
  {
  }

  /** Load signals from the placeholder page, before the handlers are connected, do nothing. */
  lemma PlaceholderLoadsIgnored(s: Shell, success: bool, percent: int)
    requires s.listeners == 0
    ensures Step(s, LoadFinished(success)) == (s, [])
    ensures Step(s, LoadProgress(percent)) == (s, [])
  {
    assert Copies(RetryLoad, 0) == multiset{};
    assert s.pending + multiset{} == s.pending;
    assert s.(pending := s.pending) == s;
  }

  function FailureCycles(n: nat): seq<Event> {
    if n == 0 then [] else [LoadFinished(false), TimerFired(RetryLoad)] + FailureCycles(n - 1)
  }

  function RetryTrace(url: string, n: nat): seq<Effect> {
    if n == 0 then [] else [Schedule(RetryDelayMs, RetryLoad), Navigate(url)] + RetryTrace(url, n - 1)
  }

  /** A failed load followed by its retry returns to the same state, after one retry timer and one navigation. */
  lemma FailureCycle(s: Shell)
    requires Inv(s) && s.listeners == 1
    ensures Run(s, [LoadFinished(false), TimerFired(RetryLoad)]) == (s, [Schedule(RetryDelayMs, RetryLoad), Navigate(s.url)])
  {
    var s1 := s.(pending := s.pending + multiset{RetryLoad});
    FailureSchedulesOneRetry(s);
    RetryNavigatesToSameUrl(s1);
    assert s1.(pending := s1.pending - multiset{RetryLoad}) == s;
    assert Step(s1, TimerFired(RetryLoad)) == (s, [Navigate(s.url)]);
    FoldTwo(Step, s, LoadFinished(false), TimerFired(RetryLoad));
    assert [Schedule(RetryDelayMs, RetryLoad)] + [Navigate(s.url)] == [Schedule(RetryDelayMs, RetryLoad), Navigate(s.url)];
  }

  /** Retries are not bounded: after any number of failures the shell still retries, to the same URL. */
  lemma {:induction false} RetriesUnbounded(s: Shell, n: nat)
    requires Inv(s) && s.listeners == 1
    ensures Run(s, FailureCycles(n)) == (s, RetryTrace(s.url, n))
  {
    if n > 0 {
      FailureCycle(s);
      FoldAppend(Step, s, [LoadFinished(false), TimerFired(RetryLoad)], FailureCycles(n - 1));
      RetriesUnbounded(s, n - 1);
    }
  }

  /** From an opened window, any events keep the URL and leave at most one set of handlers connected. */
  lemma OpenedRunKeepsUrl(store: Store, events: seq<Event>)
    requires Open(store).Success?
    ensures var s0 := Open(store).value.0;
      && Run(s0, events).0.url == Get(store, "Window", "url", DefaultUrl(store))
      && Run(s0, events).0.listeners <= 1
  {
    RunKeepsUrl(Open(store).value.0, events);
  }

  /** The 2000 ms timer of a freshly opened window navigates to its URL and connects the handlers once. */
  lemma OpenedMainTimerConnects(store: Store)
    requires Open(store).Success?
    ensures var s0 := Open(store).value.0;
      var r := Run(s0, [TimerFired(LoadMainUrl)]);
      && r.1 == [Navigate(Get(store, "Window", "url", DefaultUrl(store)))]
      && Inv(r.0) && r.0.listeners == 1 && r.0.pending == multiset{}
      && r.0 == s0.(listeners := 1, pending := multiset{})
  {
    var s0 := Open(store).value.0;
    var one := Step(s0, TimerFired(LoadMainUrl));
    assert [TimerFired(LoadMainUrl)][1..] == [];
    assert Fold(Step, one.0, []) == (one.0, []);
    assert one.1 + [] == one.1;
  }

  /**
   * An opened window, once its main-URL timer has fired, retries every failed
   * load against the configured URL, for any number of failures.
   */
  lemma OpenedWindowRetriesForever(store: Store, n: nat)
    requires Open(store).Success?
    ensures var s0 := Open(store).value.0;
      var url := Get(store, "Window", "url", DefaultUrl(store));
      var s1 := s0.(listeners := 1, pending := multiset{});
      Run(s0, [TimerFired(LoadMainUrl)] + FailureCycles(n)) == (s1, [Navigate(url)] + RetryTrace(url, n))
  {
    var s0 := Open(store).value.0;
    OpenedMainTimerConnects(store);
    var s1 := Run(s0, [TimerFired(LoadMainUrl)]).0;
    FoldAppend(Step, s0, [TimerFired(LoadMainUrl)], FailureCycles(n));
    RetriesUnbounded(s1, n);
  }
}

=== FILE: wrappers.dfy ===
/** Failure-carrying datatypes shared by the launcher model. */
module Wrappers {

  /** A value that may be absent: a missing file, a missing JSON body. */
  datatype Option<+T> = None | Some(value: T)

  /** Either a value or the error that the source would have raised. */
  datatype Result<+R, +E> = Success(value: R) | Failure(error: E)
}
